=== FILE: README.md ===
# Space shooter: the per-frame simulation

A Dafny model of the game logic of a small libGDX space shooter. The player
ship lives in the lower half of a 72 x 128 world, and enemy ships spawn
every three seconds near the top and wander the upper half. Both sides fire
pairs of lasers when their cooldown has run out. A laser that touches a ship
takes one point off its shield, or destroys the ship if the shield is
already empty. Destroying an enemy scores 100 points. A destroyed player
gets a full shield back and loses a life.

The model covers the ships (`Ship`, `EnemyShip`, `PlayerShip`) and the
non-drawing part of each frame of the game screen (`GameScreen.render`):

- background scrolling;
- player movement from the keyboard and the touch screen, and the player's cooldown clock;
- the enemy spawn timer;
- enemy movement and clocks;
- laser firing, flight and removal;
- the two collision passes;
- explosion ageing and pruning.

Everything is written as pure functions over immutable records and
sequences. Positions and times are `real`. The random draws are parameters:
the spawn position in [0, 1), and one heading per enemy for when its
direction clock runs out.

Modules, in dependency order:

- `Wrappers`, `Seqs`: `Option`, plus `Map`, `Filter`, `Count` and `Flatten` over sequences, and `Subsequence` (the elements of one sequence appear in another in the same order).
- `Geometry`: rectangles, vectors, and the overlap test.
- `Projectiles`: lasers and explosions, as records.
- `Ships`, `Enemies`, `Players`: the three ship classes.
- `Arena`: world size, the two halves, per-axis limits and the clamp.
- `Movement`, `Spawning`, `Lasers`, `Collisions`, `Effects`: the steps of a frame.
- `Game`: the world state, one frame as the game runs it (`Render`), the same frame with the corrected input step (`RenderCorrected`), and the invariant a frame keeps (`Valid`).

## Model

| member | source | states |
|---|---|---|
| Ships.Intersects | core/src/com/mygdx/game/Ship.java:58-60 | A ship intersects a box iff the box overlaps the ship's box; the test is symmetric in the two boxes. |
| Geometry.OverlapsIffCommonPoint | core/src/com/mygdx/game/Ship.java:58-60 | For boxes of positive size, the overlap test used by `intersects` holds exactly when the two boxes share an interior point. |
| Ships.NewShip | core/src/com/mygdx/game/Ship.java:19-45 | The box is centred on the given centre, with the given width and height. The cooldown clock starts at 0. Every other field is the constructor's argument. |
| Ships.CanFireLaser | core/src/com/mygdx/game/Ship.java:76-78 | The test `timeSinceLastShot - timeBetweenShots >= 0` holds iff the time since the last shot has reached the time between shots. |
| Ships.Update | core/src/com/mygdx/game/Ship.java:47-49 | The cooldown clock advances by exactly dt. Nothing else changes. A ship that could fire still can after a non-negative dt. |
| Ships.HitAndCheckDestroyed | core/src/com/mygdx/game/Ship.java:51-57 | Destroyed iff the shield is not positive, and then the ship is untouched. Otherwise the shield drops by exactly one. Only the shield ever changes, and a non-negative shield stays non-negative. |
| Ships.Translate | core/src/com/mygdx/game/Ship.java:73-75 | The centre moves by exactly (dx, dy). The size and all other fields are unchanged. |
| Ships.TranslateCompose | core/src/com/mygdx/game/Ship.java:73-75 | Two translations equal one by the summed displacement, and a translation followed by its opposite is the identity. |
| Enemies.NewEnemyShip | core/src/com/mygdx/game/EnemyShip.java:10-26 | A new enemy is the shared ship, heading straight down with a unit heading (0, -1), and its direction clock at 0. |
| Enemies.Update | core/src/com/mygdx/game/EnemyShip.java:38-46 | The cooldown advances as `Ship.update` does. When the direction clock passes 0.75, the heading becomes the drawn one and the clock drops by 0.75 rather than resetting. Otherwise the heading is kept. A unit heading stays a unit heading when the drawn one is a unit vector, and a non-negative clock stays non-negative for a non-negative dt. A clock of at most 0.75 stays at most 0.75 when dt is at most 0.75; a longer frame re-rolls only once, so the clock can then stay above 0.75. |
| Enemies.FireLasers | core/src/com/mygdx/game/EnemyShip.java:48-63 | Exactly two lasers. The x positions passed to the laser constructor are at 30% and 70% of the width, symmetric about the ship's centre. Each laser box starts at its x and extends to the right, so the two boxes sit half a laser width right of a placement symmetric about the centre. Their top edge is at the bottom of the box. They carry the ship's laser width, height and speed. The cooldown restarts, so the ship cannot fire again at once when the time between shots is positive. |
| Players.NewPlayerShip | core/src/com/mygdx/game/PlayerShip.java:17-21 | A new player has 3 lives. Everything else comes from the shared ship constructor. |
| Players.FireLasers | core/src/com/mygdx/game/PlayerShip.java:25-39 | Exactly two lasers, at 18% and 82% of the width and 45% of the way up the box, with the ship's laser size and speed. The cooldown restarts. |
| Arena.PlayerLimits | core/src/com/mygdx/game/GameScreen.java:205-209 | The four limits straddle zero exactly when the box is inside the lower half. Their spans are the free width and the free height. |
| Arena.EnemyLimits | core/src/com/mygdx/game/GameScreen.java:267-271 | The four limits straddle zero exactly when the box is inside the upper half. |
| Arena.Clamp | core/src/com/mygdx/game/GameScreen.java:254-258 | With limits around zero, the clamped move stays within them. It only ever shortens a move and never reverses it. A move already within the limits is unchanged, and a move past a limit stops exactly at that limit. |
| Movement.KeyAxis | core/src/com/mygdx/game/GameScreen.java:211-224 | The two opposite keys of one axis, each capped by a limit computed before either key moved, move the ship by an amount that stays within the limits. A lone key moves by the full step when it fits and stops at the limit otherwise, in either direction. Both keys together cancel when there is room both ways. |
| Movement.KeyAxisKeysAdd | core/src/com/mygdx/game/GameScreen.java:205-224 | With both opposite keys held, each key moves the ship as it would alone, and both are capped by the limits read before either moved. So when one side is shut, the other key still takes its clamped step. |
| Movement.KeyboardMove | core/src/com/mygdx/game/GameScreen.java:205-225 | Each axis moves by that axis's key step, with speed * dt for left/right and the climb for up/down. The arrow keys keep a player that starts in the lower half inside it. They move only the box, and do nothing when no key is pressed. |
| Movement.TouchMove | core/src/com/mygdx/game/GameScreen.java:254-260 | On each axis, a touch move within the limits is applied exactly, and one past a limit stops at that limit. The clamped step keeps the player in the lower half. |
| Movement.DetectInput | core/src/com/mygdx/game/GameScreen.java:203-263 | The game's input step, with the limits taken once before any move. Without a touch it is exactly the keyboard step. With a touch, the touch move is added to where the keyboard left the ship, applied exactly within the stale limits, and otherwise stopped at a stale limit. The player stays in the lower half whenever keys and touch are not combined in one frame. |
| Movement.MixedInputLeavesZone | core/src/com/mygdx/game/GameScreen.java:205-260 | A ship one unit from the right edge, with the right arrow and a rightward touch in the same frame, ends outside the world. |
| Movement.DetectInputCorrected | core/src/com/mygdx/game/GameScreen.java:203-263 | The same as the game's input step, except that the touch move is applied exactly within, or stopped at, the limits left after the keyboard. The player then always stays in the lower half. |
| Movement.CorrectionAgreesWithoutMixing | core/src/com/mygdx/game/GameScreen.java:203-263 | The corrected input step equals the game's whenever keys and touch are not combined. |
| Movement.MoveEnemy | core/src/com/mygdx/game/GameScreen.java:265-285 | An enemy in the upper half stays there, and only its box moves. Each axis is clamped on its own: a drift component within that axis's limits is applied exactly, and one past a limit stops exactly at that limit. If the full drift stays in the upper half, the enemy moves by exactly that drift. |
| Spawning.SpawnedEnemy | core/src/com/mygdx/game/GameScreen.java:192-198 | A spawned enemy has shield 4, a 10 x 10 box at y = 118, and a unit heading. For a draw in [0, 1) its x is in [0, 62), inside the upper half. |
| Spawning.SpawnEnemyShips | core/src/com/mygdx/game/GameScreen.java:188-201 | Exactly one enemy is appended when the advanced timer is strictly above 3, and then 3 is subtracted. Otherwise the list is unchanged. The timer plus 3 per spawn always equals the old timer plus dt. |
| Spawning.SpawnRun | core/src/com/mygdx/game/GameScreen.java:188-201 | Over many frames: no more spawns than frames, the old enemies are kept as a prefix, and the timer plus 3 per spawn equals the total elapsed time. |
| Spawning.SpawnTimerInPhase | core/src/com/mygdx/game/GameScreen.java:188-201 | While no frame is longer than 3 seconds, the spawn timer stays within [0, 3]. |
| Spawning.SpawnAfterThreePointTwoSeconds | core/src/com/mygdx/game/GameScreen.java:188-201 | Two frames of 1.6 s from a fresh timer spawn one enemy and leave 0.2 s on the timer. |
| Lasers.AdvancePlayerLasers | core/src/com/mygdx/game/GameScreen.java:362-370 | Every player laser moves up by speed * dt. It is kept iff it is then not above the top of the world. Every survivor comes from an input laser, the survivors keep their order, and their number is the count of moved lasers below the top. |
| Lasers.AdvanceEnemyLasers | core/src/com/mygdx/game/GameScreen.java:372-380 | Every enemy laser moves down by speed * dt. It is kept iff its top edge is then not below the bottom. Every survivor comes from an input laser, the survivors keep their order, and their number is the count of moved lasers above the bottom. |
| Lasers.EnemiesFire | core/src/com/mygdx/game/GameScreen.java:349-358 | Every enemy that can fire fires once and the others are unchanged. Exactly two lasers are added per ready enemy. |
| Lasers.EnemiesFireInOrder | core/src/com/mygdx/game/GameScreen.java:349-358 | The enemy lasers fired in a frame are the pairs fired by the ready enemies, concatenated in list order. |
| Lasers.AscendAppended | core/src/com/mygdx/game/GameScreen.java:340-370 | Flying the old lasers with the new volley appended keeps each moved laser, old or new, iff it is not above the top. The survivors keep their order, old lasers before the new volley, and their number is the count of moved lasers below the top. |
| Lasers.DescendAppended | core/src/com/mygdx/game/GameScreen.java:349-380 | Flying the old enemy lasers with the new salvo appended keeps each moved laser, old or new, iff it is not below the bottom. The survivors keep their order, old lasers before the new salvo, and their number is the count of moved lasers above the bottom. |
| Lasers.RenderLasers | core/src/com/mygdx/game/GameScreen.java:340-381 | A ready player fires and restarts its cooldown; a player that is not ready is unchanged. Each ready enemy becomes its fired self with its cooldown restarted, and the others are unchanged. Ships change in nothing but their cooldown. Each of the player's two new lasers, and each old player laser, is kept after flight iff it is not above the top. Each laser the enemies fired, and each old enemy laser, is kept after flight iff it is not below the bottom. In both lists the new lasers are appended after the old ones: the survivors are in that order and hold nothing else. No surviving player laser has its bottom edge above the top of the world, and no surviving enemy laser has its top edge below the bottom. |
| Collisions.FirstHit | core/src/com/mygdx/game/GameScreen.java:291-295 | Finds the first enemy in list order whose box intersects the laser: no earlier enemy intersects it. It finds none iff no enemy intersects it. |
| Collisions.ShootFirst | core/src/com/mygdx/game/GameScreen.java:290-306 | A laser is used up iff it intersects some enemy, and then only the first such enemy is hit. That enemy is removed, and its box given as a wreck, iff its shield was already empty. Otherwise only its shield drops. Enemies before it are untouched. |
| Collisions.ShotShieldLedger | core/src/com/mygdx/game/GameScreen.java:295-303 | When no shield is negative, one shot lowers the enemies' total shield by exactly one when it hits without destroying, and leaves the total unchanged otherwise. |
| Collisions.PlayerLaserPass | core/src/com/mygdx/game/GameScreen.java:288-307 | The pass never adds lasers. The surviving lasers are some of the lasers it was given, in their original order, which decides which laser hits first in the next frame. Every enemy either survives or becomes one wreck. |
| Collisions.ShotKeepsOrder | core/src/com/mygdx/game/GameScreen.java:290-306 | One player laser leaves the enemies, shields aside, as the same enemies in the same order, with at most the destroyed one left out. |
| Collisions.PlayerPassKeepsOrder | core/src/com/mygdx/game/GameScreen.java:288-307 | The enemies surviving the pass are enemies it was given, in their original order, differing at most in shield. |
| Collisions.PlayerPassWrecksIn | core/src/com/mygdx/game/GameScreen.java:296-299 | When every enemy's box is among some boxes, so is every wreck the pass leaves. |
| Collisions.PlayerPassWrecksFromEnemies | core/src/com/mygdx/game/GameScreen.java:296-299 | Every wreck of the pass, where its explosion is placed, is the box of one of the enemies it was given. |
| Collisions.PlayerPassSnoc | core/src/com/mygdx/game/GameScreen.java:288-307 | The pass handles lasers front to back. Adding a laser at the end equals running the pass on the others and then shooting that laser at the enemies they left. Its kept laser and wreck come after theirs. |
| Collisions.PlayerPassPreserves | core/src/com/mygdx/game/GameScreen.java:288-307 | Any property of enemies that a shield hit keeps holds of every surviving enemy. |
| Collisions.PlayerPassSurvivorsMissed | core/src/com/mygdx/game/GameScreen.java:288-307 | A player laser that survives the pass intersects none of the surviving enemies. |
| Collisions.MissedLaserStaysClear | core/src/com/mygdx/game/GameScreen.java:288-307 | A laser that misses every enemy still misses every enemy left after the later lasers of the pass. |
| Collisions.PlayerPassConservation | core/src/com/mygdx/game/GameScreen.java:288-307 | The number of player lasers removed equals the shield points taken off plus the enemies destroyed. |
| Collisions.StrikePlayer | core/src/com/mygdx/game/GameScreen.java:312-319 | A hit lowers a positive shield by one. Otherwise it refills the shield to 6 and takes one life, without a floor. Nothing else about the player changes. |
| Collisions.EnemyLaserPass | core/src/com/mygdx/game/GameScreen.java:309-322 | The surviving enemy lasers are exactly the ones that miss the player, in their original order. The player is never removed or moved. Lives lost equal the wrecks, each at the player's box. A shield in [0, 6] stays there. |
| Collisions.LivesHaveNoFloor | core/src/com/mygdx/game/GameScreen.java:313-318 | With no lives left and an empty shield, one more hit takes the lives below zero and the player stays in place. |
| Collisions.ClosedFormStep | core/src/com/mygdx/game/GameScreen.java:312-319 | The closed form for k hits on shield s advances by one hit as `StrikePlayer` does. |
| Collisions.EnemyPassClosedForm | core/src/com/mygdx/game/GameScreen.java:309-322 | With k lasers hitting the player on shield s, the first s hits are absorbed, the next costs a life, and every 7 after that cost another. The final shield follows the same count. |
| Effects.LayerSpeed | core/src/com/mygdx/game/GameScreen.java:383-386 | Each layer scrolls at a positive speed of at most half the world height per second. |
| Effects.LayerSpeedsDouble | core/src/com/mygdx/game/GameScreen.java:383-386 | The front layer scrolls at the maximum speed of 64 units per second, and each layer scrolls twice as fast as the one behind it: 8, 16, 32 and 64. |
| Effects.RenderBackground | core/src/com/mygdx/game/GameScreen.java:382-391 | Every offset advances by its layer's speed times dt, and is reset to 0 when that passes 128. No offset ever exceeds 128, and non-negative offsets stay non-negative. |
| Effects.UpdateExplosions | core/src/com/mygdx/game/GameScreen.java:325-338 | Every explosion ages by dt, and an explosion is kept iff it is not finished afterwards. Every survivor comes from an input explosion, the survivors keep their order, and their number is the count of aged explosions not finished. |
| Game.NewWorld | core/src/com/mygdx/game/GameScreen.java:42-102 | The initial screen satisfies the frame invariant: 3 lives, shield 6, no score, and empty lists. |
| Game.MoveAndUpdateEnemies | core/src/com/mygdx/game/GameScreen.java:149-155 | Each enemy is moved with its current heading before its clocks advance, and keeps its shield and every other field. Its cooldown clock advances by dt. Its direction clock advances by dt and drops by 0.75 when it passes 0.75, never resetting. Its heading becomes its drawn one iff its direction clock passes 0.75 this frame. Enemies that were in the upper half with unit headings still are. |
| Game.AdvanceFrom | core/src/com/mygdx/game/GameScreen.java:144-161 | After the input step, the player's cooldown clock advances, or restarts if it fires, and nothing else about the player changes. The enemies are the spawner's list, each moved along its old heading, with its shield kept and its heading redrawn iff its direction clock ran out. Each enemy's direction clock advances by dt less 0.75 when it passes 0.75, and its cooldown advances by dt or restarts when it fires. Each old player laser and each laser of the player's volley is kept after flight iff it is not above the top. Each old enemy laser and each laser fired by the moved enemies is kept after flight iff it is not below the bottom. In both lists the survivors are in order, old lasers first, and hold nothing else. |
| Game.Collide | core/src/com/mygdx/game/GameScreen.java:287-338 | The surviving enemies and player lasers are those the player-laser pass leaves. The surviving enemy lasers are exactly those that miss the player, in order, and the player is as the enemy-laser pass leaves it. The score rises by 100 per enemy removed. Lives drop by exactly the number of wrecks of the enemy-laser pass. Each destroyed enemy's 0.7 s explosion, and the player's 1.6 s explosion when a life is lost, is in the result after ageing iff it is not finished. So is each older explosion. At most one explosion per wreck is added. |
| Game.CollideLivesClosedForm | core/src/com/mygdx/game/GameScreen.java:309-322 | With k enemy lasers hitting the player on shield s, lives drop by exactly the closed-form count and the shield ends at the closed-form value. |
| Game.CollideExplosionOrder | core/src/com/mygdx/game/GameScreen.java:296-338 | The frame's explosions keep a fixed order: the old ones first, then one per destroyed enemy in the order the lasers destroyed them, then one per life lost. All are aged, the finished ones are dropped, the rest keep that order, and the count is exactly the number of aged explosions not finished. |
| Game.Render | core/src/com/mygdx/game/GameScreen.java:137-173 | The game's frame, with the game's input step. Lives never increase in a frame. The spawn timer follows the spawner's ledger. The score rises by exactly 100 per enemy that was present or spawned and is gone after the frame. |
| Game.RenderCorrected | core/src/com/mygdx/game/GameScreen.java:137-173 | The same frame with the corrected input step, with the same facts about lives, spawn timer and score. |
| Game.CorrectedFrameAgrees | core/src/com/mygdx/game/GameScreen.java:137-173 | When keys and touch are not combined, the corrected frame equals the game's frame. |
| Game.AdvanceKeepsShips | core/src/com/mygdx/game/GameScreen.java:144-161 | After an input step that keeps the player in the lower half, followed by spawning, moving and firing, the player is in the lower half with shield and lives unchanged. Every enemy is in the upper half with a unit heading. |
| Game.FramePreservesValid | core/src/com/mygdx/game/GameScreen.java:140-167 | The frame after an input step that keeps the player in the lower half keeps the invariant: offsets in [0, 128], a non-negative spawn timer, the player in the lower half with shield in [0, 6], every enemy in the upper half with shield in [0, 4] and a unit heading, and a score that is a non-negative multiple of 100. |
| Game.RenderPreservesValid | core/src/com/mygdx/game/GameScreen.java:137-173 | The game's frame keeps the invariant whenever keys and touch are not combined in one frame. |
| Game.RenderCorrectedPreservesValid | core/src/com/mygdx/game/GameScreen.java:137-173 | The corrected frame keeps the invariant for every input. |
| Game.FrameKeepsEnemies | core/src/com/mygdx/game/GameScreen.java:149-164 | Every enemy surviving a frame is in the upper half with shield in [0, 4] and a unit heading. |
| Game.FrameKeepsPlayer | core/src/com/mygdx/game/GameScreen.java:140-164 | After a frame the player is in the lower half with shield in [0, 6], and the background and spawn timer are in range. |
| Game.FrameKeepsScore | core/src/com/mygdx/game/GameScreen.java:298-301 | The score stays a non-negative multiple of 100. |

## Left out

- Drawing, textures, fonts and the score/shield/lives display: they have no effect on the game state.
- Reading the touch position: unprojecting it, and computing the distance and the direction with a square root. The model takes the already-scaled `(xMove, yMove)`, or none when the screen is not touched or the touch is within the movement threshold. Key states are booleans.
- Randomness: the spawn position draw and each redrawn heading are parameters. A redrawn heading is assumed to be a unit vector, which `(sin b, cos b)` is in exact arithmetic.
- Floating point: every quantity is an unbounded `real` or `int`. The `float` rounding of the game is not modelled.
- `Laser`, `Explosion` and `Launcher` are not part of this model. A laser is a record whose box is the constructor's (x, y, width, height). An explosion is a record whose `update` adds dt to its clock. Whether it is finished is a parameter.
- libGDX `Rectangle.overlaps` is not part of this model. It is taken to be the strict test that the boxes' projections overlap on both axes.
- Screen lifecycle hooks (`resize`, `pause`, `resume`, `hide`, `show`, `dispose`) are framework callbacks without game logic.
- Background offsets: an offset past 128 is reset to 0, not wrapped around (GameScreen.java:389-390).
- Game.RenderPreservesValid: the game's frame is only shown to keep the invariant when keys and touch are not combined in one frame, because with both the player can leave the world (see Findings). Game.RenderCorrectedPreservesValid holds for every input.
- Movement.KeyboardMove: the game translates once per pressed key. The model sums the displacements per axis and translates once, which is equal by Ships.TranslateCompose.

## Findings

| source | as written | input that shows it | evidently intended | confidence | as-written member | corrected member |
|---|---|---|---|---|---|---|
| core/src/com/mygdx/game/GameScreen.java:205-209, 254-260 | The four limits are computed once before the keyboard moves, and the touch clamp reuses them after the keyboard has already moved the ship. | A 10 x 10 player at x = 61, with the right arrow held and a full-speed touch asking for (25, 0), with speed 25 and dt = 1. The keyboard moves it to 62. The touch is then clamped to the stale right limit of 1, ending at 63 > 62, outside the world. | The touch step should be clamped against the limits as they are after the keyboard, so that the player never leaves the lower half. | not executed | Movement.DetectInput, Movement.MixedInputLeavesZone | Movement.DetectInputCorrected, Game.RenderCorrectedPreservesValid |

=== FILE: arena.dfy ===
/** The fixed world: its size, the two halves the factions move in, and
    the per-axis clamp that keeps a ship inside its half. */
module Arena {

  import opened Geometry

  const WORLD_WIDTH: real := 72.0
  const WORLD_HEIGHT: real := 128.0
  const MIDLINE: real := WORLD_HEIGHT / 2.0

  /** Full width, below the midline: where the player may be. */
  predicate InPlayerZone(b: Rect)
  {
    0.0 <= b.x <= WORLD_WIDTH - b.width && 0.0 <= b.y <= MIDLINE - b.height
  }

  /** Full width, from the midline up to the top: where enemies may be. */
  predicate InEnemyZone(b: Rect)
  {
    0.0 <= b.x <= WORLD_WIDTH - b.width && MIDLINE <= b.y <= WORLD_HEIGHT - b.height
  }

  /** The signed distance a box may still travel in each direction. */
  datatype Limits = Limits(left: real, right: real, down: real, up: real)

  predicate Straddles(lim: Limits)
  {
    lim.left <= 0.0 <= lim.right && lim.down <= 0.0 <= lim.up
  }

  function PlayerLimits(b: Rect): (lim: Limits)
    ensures InPlayerZone(b) <==> Straddles(lim)
    ensures lim.right - lim.left == WORLD_WIDTH - b.width
    ensures lim.up - lim.down == MIDLINE - b.height
  {
    Limits(-b.x, WORLD_WIDTH - b.x - b.width, -b.y, MIDLINE - b.y - b.height)
  }

  function EnemyLimits(b: Rect): (lim: Limits)
    ensures InEnemyZone(b) <==> Straddles(lim)
    ensures lim.right - lim.left == WORLD_WIDTH - b.width
    ensures lim.up - lim.down == MIDLINE - b.height
  {
    Limits(-b.x, WORLD_WIDTH - b.x - b.width, MIDLINE - b.y, WORLD_HEIGHT - b.y - b.height)
  }

  function Min(a: real, b: real): real { if a < b then a else b }

  function Max(a: real, b: real): real { if a < b then b else a }

  /** A forward move is capped by hi, any other by lo: a move within the
      limits is taken in full, one past them stops exactly at the limit. */
  function Clamp(move: real, lo: real, hi: real): (r: real)
    ensures lo <= 0.0 <= hi ==> lo <= r <= hi
    ensures lo <= move <= hi ==> r == move
    ensures 0.0 <= hi < move ==> r == hi
    ensures move < lo <= 0.0 ==> r == lo
    ensures lo <= 0.0 <= hi ==> 0.0 <= r <= move || move <= r <= 0.0
  {
    if move > 0.0 then Min(move, hi) else Max(move, lo)
  }
}

=== FILE: collisions.dfy ===
/** The two collision passes of a frame: player lasers against enemies,
    then enemy lasers against the player. */
module Collisions {

  import opened Wrappers
  import opened Geometry
  import opened Projectiles
  import opened Seqs
  import Ships
  import Enemies
  import Players

  const KILL_SCORE: int := 100
  const ENEMY_EXPLOSION_DURATION: real := 0.7
  const PLAYER_EXPLOSION_DURATION: real := 1.6
  const PLAYER_SHIELD_REFILL: int := 6

  /** No enemy in the list intersects b. */
  predicate MissesAll(enemies: seq<Enemies.EnemyShip>, b: Rect)
  {
    forall j :: 0 <= j < |enemies| ==> !Ships.Intersects(enemies[j].base, b)
  }

  /** The position of the first enemy, in list order, that intersects b. */
  function FirstHit(enemies: seq<Enemies.EnemyShip>, b: Rect): (r: Option<nat>)
    ensures r.None? <==> MissesAll(enemies, b)
    ensures r.Some? ==> r.value < |enemies| && Ships.Intersects(enemies[r.value].base, b)
    ensures r.Some? ==> MissesAll(enemies[..r.value], b)
  {
    if |enemies| == 0 then None
    else if Ships.Intersects(enemies[0].base, b) then Some(0)
    else match FirstHit(enemies[1..], b)
      case None => None
      case Some(i) => Some(i + 1)
  }

  /** What one player laser does: the enemies afterwards, whether the laser
      was used up, and the box of the enemy it destroyed, if any. */
  datatype Shot = Shot(enemies: seq<Enemies.EnemyShip>, consumed: bool, wreck: Option<Rect>)

  /** The enemy with its shield lowered by one hit. */
  function Damaged(e: Enemies.EnemyShip): Enemies.EnemyShip
  {
    e.(base := Ships.HitAndCheckDestroyed(e.base).ship)
  }

  /** One player laser against the enemy list: only the first enemy it
      intersects is hit; that enemy is removed if the hit destroys it; the
      laser is used up either way. */
  function ShootFirst(enemies: seq<Enemies.EnemyShip>, laser: Laser): (r: Shot)
    ensures r.consumed <==> !MissesAll(enemies, Box(laser))
    ensures !r.consumed ==> r == Shot(enemies, false, None)
    ensures r.wreck.Some? ==> r.consumed && |r.enemies| + 1 == |enemies|
    ensures r.wreck.None? ==> |r.enemies| == |enemies|
    ensures r.consumed ==>
              var i := FirstHit(enemies, Box(laser)).value;
              && r.enemies[..i] == enemies[..i]
              && (r.wreck.Some? <==> enemies[i].base.shield <= 0)
              && (r.wreck.Some? ==> r.wreck.value == enemies[i].base.box && r.enemies[i..] == enemies[i + 1..])
              && (r.wreck.None? ==> r.enemies == enemies[i := Damaged(enemies[i])])
  {
    match FirstHit(enemies, Box(laser))
    case None => Shot(enemies, false, None)
    case Some(i) =>
      var hit := Ships.HitAndCheckDestroyed(enemies[i].base);
      if hit.destroyed then Shot(enemies[..i] + enemies[i + 1..], true, Some(enemies[i].base.box))
      else Shot(enemies[i := enemies[i].(base := hit.ship)], true, None)
  }

  /** Every property of an enemy that survives a shield hit holds of every
      enemy after the shot, when it held of every enemy before. */
  lemma ShotPreserves(enemies: seq<Enemies.EnemyShip>, laser: Laser, ok: Enemies.EnemyShip -> bool)
    requires forall j :: 0 <= j < |enemies| ==> ok(enemies[j])
    requires forall e :: ok(e) ==> ok(Damaged(e))
    ensures var r := ShootFirst(enemies, laser);
            forall j :: 0 <= j < |r.enemies| ==> ok(r.enemies[j])
  {
    var r := ShootFirst(enemies, laser);
    if r.consumed {
      var i := FirstHit(enemies, Box(laser)).value;
      if r.wreck.Some? {
        forall j | 0 <= j < |r.enemies|
          ensures ok(r.enemies[j])
        {
          if j < i {
            assert r.enemies[j] == r.enemies[..i][j];
          } else {
            assert r.enemies[j] == r.enemies[i..][j - i];
          }
        }
      }
    }
  }

  /** The total of the enemies' shields. */
  function SumShields(enemies: seq<Enemies.EnemyShip>): int
  {
    if |enemies| == 0 then 0 else enemies[0].base.shield + SumShields(enemies[1..])
  }

  predicate Shielded(enemies: seq<Enemies.EnemyShip>)
  {
    forall j :: 0 <= j < |enemies| ==> 0 <= enemies[j].base.shield
  }

  lemma {:induction false} SumShieldsAppend(a: seq<Enemies.EnemyShip>, b: seq<Enemies.EnemyShip>)
    ensures SumShields(a + b) == SumShields(a) + SumShields(b)
    decreases |a|
  {
    if |a| == 0 {
      assert a + b == b;
    } else {
      assert (a + b)[1..] == a[1..] + b;
      SumShieldsAppend(a[1..], b);
    }
  }

  /** The enemy at i contributes its own shield to the total. */
  lemma SumShieldsAt(enemies: seq<Enemies.EnemyShip>, i: nat)
    requires i < |enemies|
    ensures SumShields(enemies) == SumShields(enemies[..i]) + enemies[i].base.shield + SumShields(enemies[i + 1..])
  {
    assert enemies == enemies[..i] + ([enemies[i]] + enemies[i + 1..]);
    SumShieldsAppend(enemies[..i], [enemies[i]] + enemies[i + 1..]);
    SumShieldsAppend([enemies[i]], enemies[i + 1..]);
    assert ([enemies[i]] + enemies[i + 1..])[1..] == enemies[i + 1..];
  }

  /** A shot that hits without destroying costs exactly one shield point;
      a shot that destroys removes an enemy whose shield was already 0. */
  lemma ShotShieldLedger(enemies: seq<Enemies.EnemyShip>, laser: Laser)
    requires Shielded(enemies)
    ensures var r := ShootFirst(enemies, laser);
            SumShields(enemies) == SumShields(r.enemies) + (if r.consumed && r.wreck.None? then 1 else 0)
  {
    var r := ShootFirst(enemies, laser);
    if r.consumed {
      var i := FirstHit(enemies, Box(laser)).value;
      SumShieldsAt(enemies, i);
      if r.wreck.Some? {
        assert r.enemies == enemies[..i] + enemies[i + 1..];
        SumShieldsAppend(enemies[..i], enemies[i + 1..]);
      } else {
        SumShieldsAt(r.enemies, i);
        assert r.enemies[..i] == enemies[..i];
        assert r.enemies[i + 1..] == enemies[i + 1..];
      }
    }
  }

  /** The outcome of the player-laser pass: the surviving enemies and
      lasers, and the boxes of the destroyed enemies in order. */
  datatype PlayerPass = PlayerPass(enemies: seq<Enemies.EnemyShip>, lasers: seq<Laser>, wrecks: seq<Rect>)

  /** Each player laser in turn is shot at the enemies as they are after
      the lasers before it. */
  function PlayerLaserPass(lasers: seq<Laser>, enemies: seq<Enemies.EnemyShip>): (r: PlayerPass)
    ensures |r.lasers| <= |lasers|
    ensures |r.enemies| + |r.wrecks| == |enemies|
    ensures forall i :: 0 <= i < |r.lasers| ==> r.lasers[i] in lasers
    ensures Subsequence(r.lasers, lasers)
    decreases |lasers|
  {
    if |lasers| == 0 then PlayerPass(enemies, [], [])
    else
      var shot := ShootFirst(enemies, lasers[0]);
      var rest := PlayerLaserPass(lasers[1..], shot.enemies);
      assert lasers == [lasers[0]] + lasers[1..];
      Seqs.SubsequenceCons(lasers[0], rest.lasers, lasers[1..]);
      var kept := if shot.consumed then rest.lasers else [lasers[0]] + rest.lasers;
      PlayerPass(rest.enemies, kept,
                 (if shot.wreck.Some? then [shot.wreck.value] else []) + rest.wrecks)
  }

  /** Every property of an enemy that survives a shield hit holds of every
      surviving enemy, when it held of every enemy before the pass. */
  lemma {:induction false} PlayerPassPreserves(lasers: seq<Laser>, enemies: seq<Enemies.EnemyShip>, ok: Enemies.EnemyShip -> bool)
    requires forall j :: 0 <= j < |enemies| ==> ok(enemies[j])
    requires forall e :: ok(e) ==> ok(Damaged(e))
    ensures var r := PlayerLaserPass(lasers, enemies);
            forall j :: 0 <= j < |r.enemies| ==> ok(r.enemies[j])
    decreases |lasers|
  {
    if |lasers| > 0 {
      var shot := ShootFirst(enemies, lasers[0]);
      assert PlayerLaserPass(lasers, enemies).enemies == PlayerLaserPass(lasers[1..], shot.enemies).enemies;
      ShotPreserves(enemies, lasers[0], ok);
      PlayerPassPreserves(lasers[1..], shot.enemies, ok);
    }
  }

  /** One more laser after those already in p: it is shot at the enemies
      they left, kept after them unless used up, and its wreck, if any,
      comes after theirs. */
  function ShootNext(p: PlayerPass, l: Laser): PlayerPass
  {
    var shot := ShootFirst(p.enemies, l);
    PlayerPass(shot.enemies,
               p.lasers + (if shot.consumed then [] else [l]),
               p.wrecks + (if shot.wreck.Some? then [shot.wreck.value] else []))
  }

  /** The first laser's outcome, shot, put in front of the pass of the
      lasers after it. */
  function Prepend(shot: Shot, head: Laser, rest: PlayerPass): PlayerPass
  {
    PlayerPass(rest.enemies, (if shot.consumed then [] else [head]) + rest.lasers,
               (if shot.wreck.Some? then [shot.wreck.value] else []) + rest.wrecks)
  }

  /** The pass of a non-empty list is its first laser's shot in front of
      the pass of the others over the enemies that shot left. */
  lemma PlayerPassUnfold(lasers: seq<Laser>, enemies: seq<Enemies.EnemyShip>)
    requires |lasers| > 0
    ensures var shot := ShootFirst(enemies, lasers[0]);
            PlayerLaserPass(lasers, enemies) == Prepend(shot, lasers[0], PlayerLaserPass(lasers[1..], shot.enemies))
  {
  }

  /** Shooting one more laser at the end commutes with putting an earlier
      outcome in front. */
  lemma ShootNextPrepend(shot: Shot, head: Laser, rest: PlayerPass, l: Laser)
    ensures ShootNext(Prepend(shot, head, rest), l) == Prepend(shot, head, ShootNext(rest, l))
  {
    var next := ShootFirst(rest.enemies, l);
    var kept: seq<Laser> := if shot.consumed then [] else [head];
    var wreck: seq<Rect> := if shot.wreck.Some? then [shot.wreck.value] else [];
    var tail: seq<Laser> := if next.consumed then [] else [l];
    var last: seq<Rect> := if next.wreck.Some? then [next.wreck.value] else [];
    assert kept + (rest.lasers + tail) == (kept + rest.lasers) + tail;
    assert wreck + (rest.wrecks + last) == (wreck + rest.wrecks) + last;
  }

  /** The pass walks the lasers front to back: the last laser is shot at
      the enemies all the earlier lasers left, and its outcome comes after
      theirs. With PlayerLaserPass([], enemies) leaving everything as it
      was, this is the loop over the player lasers, one at a time. */
  lemma {:induction false} PlayerPassSnoc(lasers: seq<Laser>, l: Laser, enemies: seq<Enemies.EnemyShip>)
    ensures PlayerLaserPass(lasers + [l], enemies) == ShootNext(PlayerLaserPass(lasers, enemies), l)
    decreases |lasers|
  {
    if |lasers| == 0 {
      assert lasers + [l] == [l];
      assert [l][1..] == [];
    } else {
      var shot := ShootFirst(enemies, lasers[0]);
      PlayerPassSnoc(lasers[1..], l, shot.enemies);
      Seqs.TailOfSnoc(lasers, l);
      PlayerPassUnfold(lasers + [l], enemies);
      PlayerPassUnfold(lasers, enemies);
      ShootNextPrepend(shot, lasers[0], PlayerLaserPass(lasers[1..], shot.enemies), l);
    }
  }

  /** The enemy with its shield ignored: what a hit that does not
      destroy leaves as it was. */
  function Shieldless(e: Enemies.EnemyShip): Enemies.EnemyShip
  {
    e.(base := e.base.(shield := 0))
  }

  function BoxIn(boxes: set<Rect>): Enemies.EnemyShip -> bool
  {
    (e: Enemies.EnemyShip) => e.base.box in boxes
  }

  /** One shot keeps the enemies, shields aside, in their order. */
  lemma ShotKeepsOrder(enemies: seq<Enemies.EnemyShip>, laser: Laser)
    ensures Subsequence(Map(ShootFirst(enemies, laser).enemies, Shieldless), Map(enemies, Shieldless))
  {
    var r := ShootFirst(enemies, laser);
    var m := Map(enemies, Shieldless);
    if r.consumed {
      var i := FirstHit(enemies, Box(laser)).value;
      if r.wreck.Some? {
        assert r.enemies == enemies[..i] + enemies[i + 1..];
        assert Map(r.enemies, Shieldless) == m[..i] + m[i + 1..];
        SubsequenceDrop(m, i);
      } else {
        assert Map(r.enemies, Shieldless) == m;
        SubsequenceRefl(m);
      }
    } else {
      SubsequenceRefl(m);
    }
  }

  /** The enemies that survive the pass are enemies it was given, in their
      original order, with only their shields changed. The order matters:
      it decides which enemy a laser hits first in the next frame. */
  lemma {:induction false} PlayerPassKeepsOrder(lasers: seq<Laser>, enemies: seq<Enemies.EnemyShip>)
    ensures Subsequence(Map(PlayerLaserPass(lasers, enemies).enemies, Shieldless), Map(enemies, Shieldless))
    decreases |lasers|
  {
    if |lasers| == 0 {
      SubsequenceRefl(Map(enemies, Shieldless));
    } else {
      var shot := ShootFirst(enemies, lasers[0]);
      assert PlayerLaserPass(lasers, enemies).enemies == PlayerLaserPass(lasers[1..], shot.enemies).enemies;
      ShotKeepsOrder(enemies, lasers[0]);
      PlayerPassKeepsOrder(lasers[1..], shot.enemies);
      SubsequenceTrans(Map(PlayerLaserPass(lasers[1..], shot.enemies).enemies, Shieldless),
                       Map(shot.enemies, Shieldless), Map(enemies, Shieldless));
    }
  }

  /** Every wreck is the box of an enemy whose box is in boxes, when all
      of them are: enemies never move during the pass. */
  lemma {:induction false} PlayerPassWrecksIn(lasers: seq<Laser>, enemies: seq<Enemies.EnemyShip>, boxes: set<Rect>)
    requires forall j :: 0 <= j < |enemies| ==> enemies[j].base.box in boxes
    ensures var r := PlayerLaserPass(lasers, enemies);
            forall i :: 0 <= i < |r.wrecks| ==> r.wrecks[i] in boxes
    decreases |lasers|
  {
    if |lasers| > 0 {
      var shot := ShootFirst(enemies, lasers[0]);
      var rest := PlayerLaserPass(lasers[1..], shot.enemies);
      ShotPreserves(enemies, lasers[0], BoxIn(boxes));
      assert forall j :: 0 <= j < |shot.enemies| ==> BoxIn(boxes)(shot.enemies[j]);
      PlayerPassWrecksIn(lasers[1..], shot.enemies, boxes);
      assert forall i :: 0 <= i < |PlayerLaserPass(lasers[1..], shot.enemies).wrecks| ==>
               PlayerLaserPass(lasers[1..], shot.enemies).wrecks[i] in boxes;
      if shot.wreck.Some? {
        var i := FirstHit(enemies, Box(lasers[0])).value;
        assert shot.wreck.value == enemies[i].base.box;
        assert PlayerLaserPass(lasers, enemies).wrecks == [shot.wreck.value] + rest.wrecks;
      } else {
        assert PlayerLaserPass(lasers, enemies).wrecks == rest.wrecks;
      }
    }
  }

  /** Each enemy destroyed by the pass leaves its own box as the wreck. */
  lemma PlayerPassWrecksFromEnemies(lasers: seq<Laser>, enemies: seq<Enemies.EnemyShip>)
    ensures var r := PlayerLaserPass(lasers, enemies);
            forall i :: 0 <= i < |r.wrecks| ==> exists j :: 0 <= j < |enemies| && r.wrecks[i] == enemies[j].base.box
  {
    var boxes := set j | 0 <= j < |enemies| :: enemies[j].base.box;
    PlayerPassWrecksIn(lasers, enemies, boxes);
  }

  function Clear(b: Rect): Enemies.EnemyShip -> bool
  {
    (e: Enemies.EnemyShip) => !Ships.Intersects(e.base, b)
  }

  /** A laser that survives the pass intersects none of the surviving
      enemies: it was kept only because it missed every enemy present at
      its turn, and enemies never move during the pass. */
  lemma {:induction false} PlayerPassSurvivorsMissed(lasers: seq<Laser>, enemies: seq<Enemies.EnemyShip>)
    ensures var r := PlayerLaserPass(lasers, enemies);
            forall i :: 0 <= i < |r.lasers| ==> MissesAll(r.enemies, Box(r.lasers[i]))
    decreases |lasers|
  {
    if |lasers| > 0 {
      var r := PlayerLaserPass(lasers, enemies);
      var shot := ShootFirst(enemies, lasers[0]);
      var rest := PlayerLaserPass(lasers[1..], shot.enemies);
      PlayerPassSurvivorsMissed(lasers[1..], shot.enemies);
      assert r.enemies == rest.enemies;
      if !shot.consumed {
        MissedLaserStaysClear(lasers, enemies);
        assert MissesAll(r.enemies, Box(lasers[0]));
        assert r.lasers == [lasers[0]] + rest.lasers;
        forall i | 0 <= i < |r.lasers|
          ensures MissesAll(r.enemies, Box(r.lasers[i]))
        {
          if i == 0 {
            assert r.lasers[0] == lasers[0];
          } else {
            assert r.lasers[i] == rest.lasers[i - 1];
            assert MissesAll(PlayerLaserPass(lasers[1..], shot.enemies).enemies,
                             Box(PlayerLaserPass(lasers[1..], shot.enemies).lasers[i - 1]));
          }
        }
      } else {
        assert r.lasers == rest.lasers;
        forall i | 0 <= i < |r.lasers|
          ensures MissesAll(r.enemies, Box(r.lasers[i]))
        {
          assert MissesAll(PlayerLaserPass(lasers[1..], shot.enemies).enemies,
                           Box(PlayerLaserPass(lasers[1..], shot.enemies).lasers[i]));
        }
      }
    }
  }

  /** A laser that misses every enemy still misses every enemy the later
      lasers leave behind, since hits only lower shields or remove. */
  lemma MissedLaserStaysClear(lasers: seq<Laser>, enemies: seq<Enemies.EnemyShip>)
    requires |lasers| > 0 && MissesAll(enemies, Box(lasers[0]))
    ensures MissesAll(PlayerLaserPass(lasers[1..], enemies).enemies, Box(lasers[0]))
  {
    var ok := Clear(Box(lasers[0]));
    assert forall j :: 0 <= j < |enemies| ==> ok(enemies[j]);
    assert forall e :: ok(e) ==> ok(Damaged(e));
    PlayerPassPreserves(lasers[1..], enemies, ok);
    var rest := PlayerLaserPass(lasers[1..], enemies);
    forall j | 0 <= j < |rest.enemies|
      ensures !Ships.Intersects(rest.enemies[j].base, Box(lasers[0]))
    {
      assert ok(PlayerLaserPass(lasers[1..], enemies).enemies[j]);
    }
  }

  /** Conservation: every player laser the pass removes either took one
      point off a shield or destroyed an enemy, never both, never neither. */
  lemma {:induction false} PlayerPassConservation(lasers: seq<Laser>, enemies: seq<Enemies.EnemyShip>)
    requires Shielded(enemies)
    ensures var r := PlayerLaserPass(lasers, enemies);
            |lasers| - |r.lasers| == (SumShields(enemies) - SumShields(r.enemies)) + |r.wrecks|
    decreases |lasers|
  {
    if |lasers| > 0 {
      var shot := ShootFirst(enemies, lasers[0]);
      ShotShieldLedger(enemies, lasers[0]);
      var ok := (e: Enemies.EnemyShip) => 0 <= e.base.shield;
      ShotPreserves(enemies, lasers[0], ok);
      PlayerPassConservation(lasers[1..], shot.enemies);
    }
  }

  /** What one intersecting enemy laser does to the player: a hit on the
      shield, or, when the shield is exhausted, an explosion at the
      player's box, a full shield and one life less. Lives have no floor. */
  function StrikePlayer(p: Players.PlayerShip): (r: Players.PlayerShip)
    ensures r.base.(shield := p.base.shield) == p.base
    ensures p.base.shield > 0 ==> r.base.shield == p.base.shield - 1 && r.lives == p.lives
    ensures p.base.shield <= 0 ==> r.base.shield == PLAYER_SHIELD_REFILL && r.lives == p.lives - 1
  {
    var hit := Ships.HitAndCheckDestroyed(p.base);
    if hit.destroyed then p.(base := hit.ship.(shield := PLAYER_SHIELD_REFILL), lives := p.lives - 1)
    else p.(base := hit.ship)
  }

  /** The outcome of the enemy-laser pass: the player afterwards, the
      surviving lasers, and one box per life lost. */
  datatype EnemyPass = EnemyPass(player: Players.PlayerShip, lasers: seq<Laser>, wrecks: seq<Rect>)

  function Misses(box: Rect): Laser -> bool
  {
    (l: Laser) => !Overlaps(box, Box(l))
  }

  /** Each enemy laser in turn: one that intersects the player strikes it
      and is removed; the player itself is never removed or moved. */
  function EnemyLaserPass(lasers: seq<Laser>, p: Players.PlayerShip): (r: EnemyPass)
    ensures r.lasers == Filter(lasers, Misses(p.base.box))
    ensures r.player.base.(shield := p.base.shield) == p.base
    ensures r.player.lives + |r.wrecks| == p.lives
    ensures forall i :: 0 <= i < |r.wrecks| ==> r.wrecks[i] == p.base.box
    ensures 0 <= p.base.shield <= PLAYER_SHIELD_REFILL ==> 0 <= r.player.base.shield <= PLAYER_SHIELD_REFILL
    decreases |lasers|
  {
    if |lasers| == 0 then EnemyPass(p, [], [])
    else if Ships.Intersects(p.base, Box(lasers[0])) then
      var struck := StrikePlayer(p);
      var rest := EnemyLaserPass(lasers[1..], struck);
      EnemyPass(rest.player, rest.lasers,
                (if struck.lives < p.lives then [p.base.box] else []) + rest.wrecks)
    else
      var rest := EnemyLaserPass(lasers[1..], p);
      EnemyPass(rest.player, [lasers[0]] + rest.lasers, rest.wrecks)
  }

  /** A lethal hit is never blocked by the lives counter: with no lives
      left, one more lethal hit takes it below zero, and the player stays. */
  lemma LivesHaveNoFloor(l: Laser, p: Players.PlayerShip)
    requires p.lives <= 0 && p.base.shield == 0
    requires Ships.Intersects(p.base, Box(l))
    ensures var r := EnemyLaserPass([l], p);
            && r.player.lives == p.lives - 1 < 0
            && r.player.base.box == p.base.box
            && r.player.base.shield == PLAYER_SHIELD_REFILL
            && r.lasers == [] && r.wrecks == [p.base.box]
  {
  }

  /** Closed form of k consecutive hits on a shield s >= 0: the first s hits
      are absorbed, the next destroys, and from then on every
      PLAYER_SHIELD_REFILL + 1 hits cost one more life. */
  function LivesLost(s: int, k: nat): nat
    requires 0 <= s
  {
    if k <= s then 0 else 1 + (k - s - 1) / (PLAYER_SHIELD_REFILL + 1)
  }

  function ShieldAfter(s: int, k: nat): int
    requires 0 <= s
  {
    if k <= s then s - k else PLAYER_SHIELD_REFILL - (k - s - 1) % (PLAYER_SHIELD_REFILL + 1)
  }

  /** One more hit in closed form. */
  lemma ClosedFormStep(s: int, k: nat)
    requires 0 <= s && 0 < k
    ensures var s' := if s > 0 then s - 1 else PLAYER_SHIELD_REFILL;
            && LivesLost(s, k) == (if s > 0 then 0 else 1) + LivesLost(s', k - 1)
            && ShieldAfter(s, k) == ShieldAfter(s', k - 1)
  {
  }

  /** The enemy-laser pass agrees with the closed form: with k the number
      of lasers that intersected the player, the player loses
      LivesLost(s, k) lives and ends with shield ShieldAfter(s, k). */
  lemma {:induction false} EnemyPassClosedForm(lasers: seq<Laser>, p: Players.PlayerShip)
    requires 0 <= p.base.shield
    ensures ClosedFormHolds(lasers, p)
    decreases |lasers|
  {
    if |lasers| > 0 {
      if Ships.Intersects(p.base, Box(lasers[0])) {
        EnemyPassClosedForm(lasers[1..], StrikePlayer(p));
        HitCase(lasers, p);
      } else {
        EnemyPassClosedForm(lasers[1..], p);
        MissCase(lasers, p);
      }
    }
  }

  predicate ClosedFormHolds(lasers: seq<Laser>, p: Players.PlayerShip)
    requires 0 <= p.base.shield
  {
    var r := EnemyLaserPass(lasers, p);
    var k := |lasers| - |r.lasers|;
    && |r.wrecks| == LivesLost(p.base.shield, k)
    && r.player.base.shield == ShieldAfter(p.base.shield, k)
  }

  lemma HitCase(lasers: seq<Laser>, p: Players.PlayerShip)
    requires 0 <= p.base.shield && |lasers| > 0
    requires Ships.Intersects(p.base, Box(lasers[0]))
    requires ClosedFormHolds(lasers[1..], StrikePlayer(p))
    ensures ClosedFormHolds(lasers, p)
  {
    var r := EnemyLaserPass(lasers, p);
    var struck := StrikePlayer(p);
    var rest := EnemyLaserPass(lasers[1..], struck);
    var k' := |lasers[1..]| - |rest.lasers|;
    assert r.lasers == rest.lasers;
    assert r.player == rest.player;
    assert |r.wrecks| == (if p.base.shield > 0 then 0 else 1) + |rest.wrecks|;
    assert struck.base.shield == if p.base.shield > 0 then p.base.shield - 1 else PLAYER_SHIELD_REFILL;
    assert |rest.wrecks| == LivesLost(struck.base.shield, k') && rest.player.base.shield == ShieldAfter(struck.base.shield, k');
    HitStep(p.base.shield, k', |rest.wrecks|, rest.player.base.shield);
    assert |lasers| - |r.lasers| == k' + 1;
  }

  /** The arithmetic of HitCase, kept apart from the pass. */
  lemma HitStep(s: int, k': nat, wrecks: nat, shield: int)
    requires 0 <= s
    requires var s' := if s > 0 then s - 1 else PLAYER_SHIELD_REFILL;
             wrecks == LivesLost(s', k') && shield == ShieldAfter(s', k')
    ensures (if s > 0 then 0 else 1) + wrecks == LivesLost(s, k' + 1)
    ensures shield == ShieldAfter(s, k' + 1)
  {
    ClosedFormStep(s, k' + 1);
  }

  lemma MissCase(lasers: seq<Laser>, p: Players.PlayerShip)
    requires 0 <= p.base.shield && |lasers| > 0
    requires !Ships.Intersects(p.base, Box(lasers[0]))
    requires ClosedFormHolds(lasers[1..], p)
    ensures ClosedFormHolds(lasers, p)
  {
    var r := EnemyLaserPass(lasers, p);
    var rest := EnemyLaserPass(lasers[1..], p);
    assert |r.lasers| == 1 + |rest.lasers|;
    assert r.player == rest.player && r.wrecks == rest.wrecks;
  }
}

=== FILE: effects.dfy ===
/** The scrolling background and the explosions: state that only the
    drawing reads, but that the frame still has to advance and prune. */
module Effects {

  import opened Projectiles
  import opened Arena
  import opened Seqs

  const BACKGROUND_MAX_SCROLLING_SPEED: real := WORLD_HEIGHT / 2.0

  /** The four background layers scroll at 1/8, 1/4, 1/2 and all of the
      maximum speed. */
  function LayerSpeed(i: int): (v: real)
    requires 0 <= i < 4
    ensures 0.0 < v <= BACKGROUND_MAX_SCROLLING_SPEED
  {
    BACKGROUND_MAX_SCROLLING_SPEED / [8.0, 4.0, 2.0, 1.0][i]
  }

  /** The fastest layer scrolls at the maximum speed and each layer twice
      as fast as the one behind it: 8, 16, 32 and 64 units per second. */
  lemma LayerSpeedsDouble()
    ensures LayerSpeed(3) == BACKGROUND_MAX_SCROLLING_SPEED == 64.0
    ensures forall i :: 0 <= i < 3 ==> LayerSpeed(i + 1) == 2.0 * LayerSpeed(i)
  {
  }

  /** Advances every layer's offset; an offset past the world height is
      reset to 0, not wrapped around. */
  function RenderBackground(offsets: seq<real>, dt: real): (r: seq<real>)
    requires |offsets| == 4
    ensures |r| == 4
    ensures forall i :: 0 <= i < 4 ==> r[i] <= WORLD_HEIGHT
    ensures forall i :: 0 <= i < 4 ==>
              if offsets[i] + dt * LayerSpeed(i) > WORLD_HEIGHT then r[i] == 0.0
              else r[i] == offsets[i] + dt * LayerSpeed(i)
    ensures (0.0 <= dt && forall i :: 0 <= i < 4 ==> 0.0 <= offsets[i]) ==>
              forall i :: 0 <= i < 4 ==> 0.0 <= r[i]
  {
    seq(4, i requires 0 <= i < 4 =>
      var o := offsets[i] + dt * LayerSpeed(i);
      if o > WORLD_HEIGHT then 0.0 else o)
  }

  function Age(dt: real): Explosion -> Explosion
  {
    (e: Explosion) => Advance(e, dt)
  }

  function Unfinished(finished: Explosion -> bool): Explosion -> bool
  {
    (e: Explosion) => !finished(e)
  }

  /** Advances every explosion's clock and drops those that report being
      finished, keeping the others in order; finished is the animation's
      own test. */
  function UpdateExplosions(explosions: seq<Explosion>, dt: real, finished: Explosion -> bool): (r: seq<Explosion>)
    ensures |r| <= |explosions|
    ensures forall i :: 0 <= i < |r| ==> !finished(r[i])
    ensures forall i :: 0 <= i < |explosions| ==>
              (Advance(explosions[i], dt) in r <==> !finished(Advance(explosions[i], dt)))
    ensures forall i :: 0 <= i < |r| ==> exists j :: 0 <= j < |explosions| && r[i] == Advance(explosions[j], dt)
    ensures Subsequence(r, Map(explosions, Age(dt)))
    ensures |r| == Count(Map(explosions, Age(dt)), Unfinished(finished))
  {
    Filter(Map(explosions, Age(dt)), Unfinished(finished))
  }
}

=== FILE: enemies.dfy ===
/** Enemy ships: a shared ship state plus a heading that is redrawn at a
    fixed interval. */
module Enemies {

  import opened Geometry
  import opened Projectiles
  import Ships

  const DIRECTION_CHANGE_FREQUENCY: real := 0.75

  datatype EnemyShip = EnemyShip(
    base: Ships.Ship,
    heading: Vec2,
    timeSinceLastDirectionChange: real)

  /** A new enemy heads straight down and its direction clock starts at 0. */
  function NewEnemyShip(
    movementSpeed: real, shield: int,
    xCentre: real, yCentre: real,
    width: real, height: real,
    laserWidth: real, laserHeight: real,
    laserSpeed: real, timeBetweenShots: real): (e: EnemyShip)
    ensures e.base == Ships.NewShip(movementSpeed, shield, xCentre, yCentre, width, height,
                                    laserWidth, laserHeight, laserSpeed, timeBetweenShots)
    ensures e.heading == Vec2(0.0, -1.0) && IsUnit(e.heading)
    ensures e.timeSinceLastDirectionChange == 0.0
  {
    EnemyShip(Ships.NewShip(movementSpeed, shield, xCentre, yCentre, width, height,
                            laserWidth, laserHeight, laserSpeed, timeBetweenShots),
              Vec2(0.0, -1.0), 0.0)
  }

  /** One frame of both clocks. redraw is the heading the random bearing
      would give, (sin b, cos b); it is used only when the direction clock
      passes the interval, which is then subtracted, not reset. */
  function Update(e: EnemyShip, dt: real, redraw: Vec2): (r: EnemyShip)
    ensures r.base == Ships.Update(e.base, dt)
    ensures e.timeSinceLastDirectionChange + dt > DIRECTION_CHANGE_FREQUENCY ==>
              r.heading == redraw &&
              r.timeSinceLastDirectionChange == e.timeSinceLastDirectionChange + dt - DIRECTION_CHANGE_FREQUENCY
    ensures e.timeSinceLastDirectionChange + dt <= DIRECTION_CHANGE_FREQUENCY ==>
              r.heading == e.heading &&
              r.timeSinceLastDirectionChange == e.timeSinceLastDirectionChange + dt
    ensures IsUnit(e.heading) && IsUnit(redraw) ==> IsUnit(r.heading)
    ensures 0.0 <= e.timeSinceLastDirectionChange && 0.0 <= dt ==> 0.0 <= r.timeSinceLastDirectionChange
    ensures e.timeSinceLastDirectionChange <= DIRECTION_CHANGE_FREQUENCY && dt <= DIRECTION_CHANGE_FREQUENCY ==>
              r.timeSinceLastDirectionChange <= DIRECTION_CHANGE_FREQUENCY
  {
    var clock := e.timeSinceLastDirectionChange + dt;
    if clock > DIRECTION_CHANGE_FREQUENCY then
      EnemyShip(Ships.Update(e.base, dt), redraw, clock - DIRECTION_CHANGE_FREQUENCY)
    else
      EnemyShip(Ships.Update(e.base, dt), e.heading, clock)
  }

  /** Two lasers at 30% and 70% of the width, hanging just below the box,
      with the ship's laser size and speed; the cooldown restarts. */
  function FireLasers(e: EnemyShip): (r: Volley<EnemyShip>)
    ensures |r.lasers| == 2
    ensures r.lasers[0].x == e.base.box.x + e.base.box.width * 0.30
    ensures r.lasers[1].x == e.base.box.x + e.base.box.width * 0.70
    ensures forall i :: 0 <= i < 2 ==>
              r.lasers[i].y + r.lasers[i].height == e.base.box.y &&
              r.lasers[i].width == e.base.laserWidth &&
              r.lasers[i].height == e.base.laserHeight &&
              r.lasers[i].speed == e.base.laserSpeed
    ensures r.lasers[0].x + r.lasers[1].x == 2.0 * Centre(e.base.box).x
    ensures r.shooter == e.(base := e.base.(timeSinceLastShot := 0.0))
    ensures e.base.timeBetweenShots > 0.0 ==> !Ships.CanFireLaser(r.shooter.base)
  {
    var b := e.base.box;
    var y := b.y - e.base.laserHeight;
    Volley(e.(base := e.base.(timeSinceLastShot := 0.0)),
           [Laser(b.x + b.width * 0.30, y, e.base.laserWidth, e.base.laserHeight, e.base.laserSpeed),
            Laser(b.x + b.width * 0.70, y, e.base.laserWidth, e.base.laserHeight, e.base.laserSpeed)])
  }
}

=== FILE: game.dfy ===
/** One frame of the game screen, in the order the screen runs its steps,
    and the invariant every frame keeps. */
module Game {

  import opened Wrappers
  import opened Geometry
  import opened Projectiles
  import opened Seqs
  import opened Arena
  import Ships
  import Enemies
  import Players
  import Movement
  import Spawning
  import Lasers
  import Collisions
  import Effects

  datatype World = World(
    offsets: seq<real>,
    spawnTimer: real,
    player: Players.PlayerShip,
    enemies: seq<Enemies.EnemyShip>,
    playerLasers: seq<Laser>,
    enemyLasers: seq<Laser>,
    explosions: seq<Explosion>,
    score: int)

  /** The frame's random draws: the spawn position in [0, 1), and for the
      enemy at position i (after any spawn) the heading it takes if its
      direction clock runs out this frame. */
  datatype Draws = Draws(spawnX: real, redraws: seq<Vec2>)

  /** The screen as it is created: still background, the player centred in
      the lower half, no enemies, lasers or explosions, and no score. */
  function NewWorld(): (w: World)
    ensures Valid(w)
    ensures w.player.lives == 3 && w.player.base.shield == 6 && w.score == 0
    ensures w.enemies == [] && w.playerLasers == [] && w.enemyLasers == [] && w.explosions == []
  {
    World([0.0, 0.0, 0.0, 0.0], 0.0,
          Players.NewPlayerShip(25.0, 6,
                                WORLD_WIDTH / 2.0, WORLD_HEIGHT / 4.0,
                                10.0, 10.0,
                                0.4, 4.0,
                                45.0, 0.5),
          [], [], [], [], 0)
  }

  predicate EnemyOk(e: Enemies.EnemyShip)
  {
    && InEnemyZone(e.base.box)
    && 0 <= e.base.shield <= 4
    && IsUnit(e.heading)
    && 0.0 <= e.timeSinceLastDirectionChange
  }

  /** What holds of the screen after every frame. Lives are not bounded
      below: they may go negative, and ending the game is up to the caller. */
  predicate Valid(w: World)
  {
    && |w.offsets| == 4
    && (forall i :: 0 <= i < 4 ==> 0.0 <= w.offsets[i] <= WORLD_HEIGHT)
    && 0.0 <= w.spawnTimer
    && InPlayerZone(w.player.base.box)
    && 0.0 <= w.player.base.movementSpeed
    && 0 <= w.player.base.shield <= Collisions.PLAYER_SHIELD_REFILL
    && (forall j :: 0 <= j < |w.enemies| ==> EnemyOk(w.enemies[j]))
    && 0 <= w.score && w.score % Collisions.KILL_SCORE == 0
  }

  /** Each enemy is first moved along its current heading, then its clocks
      advance, which may redraw the heading for the next frame. */
  function MoveAndUpdateEnemies(enemies: seq<Enemies.EnemyShip>, dt: real, redraws: seq<Vec2>): (r: seq<Enemies.EnemyShip>)
    requires |redraws| >= |enemies|
    ensures |r| == |enemies|
    ensures forall j :: 0 <= j < |enemies| ==>
              r[j].base.box == Movement.MoveEnemy(enemies[j], dt).base.box &&
              r[j].base.shield == enemies[j].base.shield &&
              r[j].base.timeSinceLastShot == enemies[j].base.timeSinceLastShot + dt &&
              r[j].base.(box := enemies[j].base.box, timeSinceLastShot := enemies[j].base.timeSinceLastShot) == enemies[j].base
    ensures forall j :: 0 <= j < |enemies| ==>
              var c := enemies[j].timeSinceLastDirectionChange + dt;
              r[j].timeSinceLastDirectionChange ==
                if c > Enemies.DIRECTION_CHANGE_FREQUENCY then c - Enemies.DIRECTION_CHANGE_FREQUENCY else c
    ensures forall j :: 0 <= j < |enemies| ==>
              if enemies[j].timeSinceLastDirectionChange + dt > Enemies.DIRECTION_CHANGE_FREQUENCY
              then r[j].heading == redraws[j]
              else r[j].heading == enemies[j].heading
    ensures (0.0 <= dt && (forall j :: 0 <= j < |redraws| ==> IsUnit(redraws[j])) &&
             forall j :: 0 <= j < |enemies| ==> EnemyOk(enemies[j])) ==>
              forall j :: 0 <= j < |r| ==> EnemyOk(r[j])
  {
    seq(|enemies|, j requires 0 <= j < |enemies| =>
      Enemies.Update(Movement.MoveEnemy(enemies[j], dt), dt, redraws[j]))
  }

  /** The first half of a frame after the player's input step has moved
      the player's ship to moved: the player's cooldown clock, spawning,
      enemy movement and clocks, firing, and laser flight. */
  function AdvanceFrom(w: World, moved: Ships.Ship, draws: Draws, dt: real): (r: Lasers.Firing)
    requires |draws.redraws| > |w.enemies|
    ensures r.player.lives == w.player.lives
    ensures r.player.base.(timeSinceLastShot := moved.timeSinceLastShot) == moved
    ensures r.player.base.timeSinceLastShot ==
              if Ships.CanFireLaser(Ships.Update(moved, dt)) then 0.0 else moved.timeSinceLastShot + dt
    ensures var spawn := Spawning.SpawnEnemyShips(w.spawnTimer, w.enemies, dt, draws.spawnX);
            && |r.enemies| == |spawn.enemies|
            && forall j :: 0 <= j < |r.enemies| ==>
                 && r.enemies[j].base.box == Movement.MoveEnemy(spawn.enemies[j], dt).base.box
                 && r.enemies[j].base.shield == spawn.enemies[j].base.shield
                 && r.enemies[j].heading ==
                      if spawn.enemies[j].timeSinceLastDirectionChange + dt > Enemies.DIRECTION_CHANGE_FREQUENCY
                      then draws.redraws[j] else spawn.enemies[j].heading
    ensures var spawn := Spawning.SpawnEnemyShips(w.spawnTimer, w.enemies, dt, draws.spawnX);
            forall j :: 0 <= j < |r.enemies| ==>
              var c := spawn.enemies[j].timeSinceLastDirectionChange + dt;
              var shot := spawn.enemies[j].base.timeSinceLastShot + dt;
              && r.enemies[j].timeSinceLastDirectionChange ==
                   (if c > Enemies.DIRECTION_CHANGE_FREQUENCY then c - Enemies.DIRECTION_CHANGE_FREQUENCY else c)
              && r.enemies[j].base.timeSinceLastShot ==
                   (if spawn.enemies[j].base.timeBetweenShots <= shot then 0.0 else shot)
              && r.enemies[j].base.(box := spawn.enemies[j].base.box, timeSinceLastShot := spawn.enemies[j].base.timeSinceLastShot)
                   == spawn.enemies[j].base
    ensures Lasers.Flight(w.playerLasers, Lasers.PlayerVolley(w.player.(base := Ships.Update(moved, dt))),
                          Lasers.Ascend(dt), Lasers.BelowTop, r.playerLasers)
    ensures var spawn := Spawning.SpawnEnemyShips(w.spawnTimer, w.enemies, dt, draws.spawnX);
            Lasers.Flight(w.enemyLasers, Lasers.EnemiesFire(MoveAndUpdateEnemies(spawn.enemies, dt, draws.redraws)).lasers,
                          Lasers.Descend(dt), Lasers.AboveBottom, r.enemyLasers)
  {
    var player := w.player.(base := Ships.Update(moved, dt));
    var spawn := Spawning.SpawnEnemyShips(w.spawnTimer, w.enemies, dt, draws.spawnX);
    var enemies := MoveAndUpdateEnemies(spawn.enemies, dt, draws.redraws);
    Lasers.RenderLasers(player, enemies, w.playerLasers, w.enemyLasers, dt)
  }

  /** The second half of a frame: the player's lasers against the enemies,
      the enemies' lasers against the player, new explosions for every
      wreck, explosion clocks, and 100 points per enemy destroyed. */
  function Collide(w: World, offsets: seq<real>, spawnTimer: real, fired: Lasers.Firing, dt: real, finished: Explosion -> bool): (r: World)
    ensures r.player.lives <= fired.player.lives
    ensures r.player.lives == fired.player.lives - |Collisions.EnemyLaserPass(fired.enemyLasers, fired.player).wrecks|
    ensures r.score == w.score + Collisions.KILL_SCORE * (|fired.enemies| - |r.enemies|)
    ensures r.offsets == offsets && r.spawnTimer == spawnTimer
    ensures var hits := Collisions.PlayerLaserPass(fired.playerLasers, fired.enemies);
            r.enemies == hits.enemies && r.playerLasers == hits.lasers
    ensures r.enemyLasers == Filter(fired.enemyLasers, Collisions.Misses(fired.player.base.box))
    ensures r.player == Collisions.EnemyLaserPass(fired.enemyLasers, fired.player).player
    ensures var hits := Collisions.PlayerLaserPass(fired.playerLasers, fired.enemies);
            forall i :: 0 <= i < |hits.wrecks| ==>
              var e := Advance(NewExplosion(hits.wrecks[i], Collisions.ENEMY_EXPLOSION_DURATION), dt);
              e in r.explosions <==> !finished(e)
    ensures r.player.lives < fired.player.lives ==>
              var e := Advance(NewExplosion(fired.player.base.box, Collisions.PLAYER_EXPLOSION_DURATION), dt);
              e in r.explosions <==> !finished(e)
    ensures forall i :: 0 <= i < |w.explosions| ==>
              (Advance(w.explosions[i], dt) in r.explosions <==> !finished(Advance(w.explosions[i], dt)))
    ensures |r.explosions| <= |w.explosions| + (|fired.enemies| - |r.enemies|) + (fired.player.lives - r.player.lives)
  {
    var hits := Collisions.PlayerLaserPass(fired.playerLasers, fired.enemies);
    var strikes := Collisions.EnemyLaserPass(fired.enemyLasers, fired.player);
    var booms := Map(hits.wrecks, Kindle(Collisions.ENEMY_EXPLOSION_DURATION));
    var losses := Map(strikes.wrecks, Kindle(Collisions.PLAYER_EXPLOSION_DURATION));
    var all := w.explosions + booms + losses;
    assert forall i :: 0 <= i < |w.explosions| ==> all[i] == w.explosions[i];
    assert forall i :: 0 <= i < |booms| ==> all[|w.explosions| + i] == booms[i];
    assert |losses| > 0 ==> all[|w.explosions| + |booms|] == losses[0];
    var explosions := Effects.UpdateExplosions(all, dt, finished);
    World(offsets, spawnTimer, strikes.player, hits.enemies, hits.lasers, strikes.lasers, explosions,
          w.score + Collisions.KILL_SCORE * |hits.wrecks|)
  }

  /** The frame's explosions are the old ones, then one for each enemy
      destroyed in the order the lasers destroyed them, then one for each
      life the player lost: all aged by dt, the finished ones dropped, the
      rest kept in that order. */
  lemma CollideExplosionOrder(w: World, offsets: seq<real>, spawnTimer: real, fired: Lasers.Firing, dt: real, finished: Explosion -> bool)
    ensures var r := Collide(w, offsets, spawnTimer, fired, dt, finished);
            var all := w.explosions
                       + Map(Collisions.PlayerLaserPass(fired.playerLasers, fired.enemies).wrecks, Kindle(Collisions.ENEMY_EXPLOSION_DURATION))
                       + Map(Collisions.EnemyLaserPass(fired.enemyLasers, fired.player).wrecks, Kindle(Collisions.PLAYER_EXPLOSION_DURATION));
            && Subsequence(r.explosions, Map(all, Effects.Age(dt)))
            && |r.explosions| == Count(Map(all, Effects.Age(dt)), Effects.Unfinished(finished))
  {
    var hits := Collisions.PlayerLaserPass(fired.playerLasers, fired.enemies);
    var strikes := Collisions.EnemyLaserPass(fired.enemyLasers, fired.player);
    var all := w.explosions + Map(hits.wrecks, Kindle(Collisions.ENEMY_EXPLOSION_DURATION))
               + Map(strikes.wrecks, Kindle(Collisions.PLAYER_EXPLOSION_DURATION));
    assert Collide(w, offsets, spawnTimer, fired, dt, finished).explosions == Effects.UpdateExplosions(all, dt, finished);
  }

  /** The player loses lives in a frame exactly as the closed form of its
      shield hits says: with k enemy lasers hitting a shield s, the first
      s hits are absorbed, the next costs a life, and every 7 after that
      another. */
  lemma CollideLivesClosedForm(w: World, offsets: seq<real>, spawnTimer: real, fired: Lasers.Firing, dt: real, finished: Explosion -> bool)
    requires 0 <= fired.player.base.shield
    ensures var r := Collide(w, offsets, spawnTimer, fired, dt, finished);
            var k := |fired.enemyLasers| - |r.enemyLasers|;
            && r.player.lives == fired.player.lives - Collisions.LivesLost(fired.player.base.shield, k)
            && r.player.base.shield == Collisions.ShieldAfter(fired.player.base.shield, k)
  {
    Collisions.EnemyPassClosedForm(fired.enemyLasers, fired.player);
    var strikes := Collisions.EnemyLaserPass(fired.enemyLasers, fired.player);
    assert Collide(w, offsets, spawnTimer, fired, dt, finished).player == strikes.player;
    assert Collide(w, offsets, spawnTimer, fired, dt, finished).enemyLasers == strikes.lasers;
  }

  /** Everything in a frame after the player's input step. */
  function Frame(w: World, moved: Ships.Ship, draws: Draws, dt: real, finished: Explosion -> bool): (r: World)
    requires |w.offsets| == 4
    requires |draws.redraws| > |w.enemies|
    ensures r.player.lives <= w.player.lives
    ensures r.spawnTimer == w.spawnTimer + dt - (if w.spawnTimer + dt > Spawning.TIME_BETWEEN_ENEMY_SPAWNS then Spawning.TIME_BETWEEN_ENEMY_SPAWNS else 0.0)
    ensures r.score == w.score + Collisions.KILL_SCORE *
              (|w.enemies| + (if w.spawnTimer + dt > Spawning.TIME_BETWEEN_ENEMY_SPAWNS then 1 else 0) - |r.enemies|)
  {
    var offsets := Effects.RenderBackground(w.offsets, dt);
    var spawn := Spawning.SpawnEnemyShips(w.spawnTimer, w.enemies, dt, draws.spawnX);
    Collide(w, offsets, spawn.timer, AdvanceFrom(w, moved, draws, dt), dt, finished)
  }

  /** One frame as the game runs it: background, the player's input step
      with the limits taken once (Movement.DetectInput), then the rest. */
  function Render(w: World, input: Movement.Input, draws: Draws, dt: real, finished: Explosion -> bool): (r: World)
    requires |w.offsets| == 4
    requires |draws.redraws| > |w.enemies|
    ensures r.player.lives <= w.player.lives
    ensures r.spawnTimer == w.spawnTimer + dt - (if w.spawnTimer + dt > Spawning.TIME_BETWEEN_ENEMY_SPAWNS then Spawning.TIME_BETWEEN_ENEMY_SPAWNS else 0.0)
    ensures r.score == w.score + Collisions.KILL_SCORE *
              (|w.enemies| + (if w.spawnTimer + dt > Spawning.TIME_BETWEEN_ENEMY_SPAWNS then 1 else 0) - |r.enemies|)
  {
    Frame(w, Movement.DetectInput(w.player.base, input, dt), draws, dt, finished)
  }

  /** One frame with the corrected input step (Movement.DetectInputCorrected). */
  function RenderCorrected(w: World, input: Movement.Input, draws: Draws, dt: real, finished: Explosion -> bool): (r: World)
    requires |w.offsets| == 4
    requires |draws.redraws| > |w.enemies|
    ensures r.player.lives <= w.player.lives
    ensures r.spawnTimer == w.spawnTimer + dt - (if w.spawnTimer + dt > Spawning.TIME_BETWEEN_ENEMY_SPAWNS then Spawning.TIME_BETWEEN_ENEMY_SPAWNS else 0.0)
    ensures r.score == w.score + Collisions.KILL_SCORE *
              (|w.enemies| + (if w.spawnTimer + dt > Spawning.TIME_BETWEEN_ENEMY_SPAWNS then 1 else 0) - |r.enemies|)
  {
    Frame(w, Movement.DetectInputCorrected(w.player.base, input, dt), draws, dt, finished)
  }

  /** After the first half of a valid frame whose input step kept the
      player in the lower half, the player is still there with its shield
      unchanged and every enemy is still EnemyOk. */
  lemma AdvanceKeepsShips(w: World, moved: Ships.Ship, draws: Draws, dt: real)
    requires Valid(w)
    requires InPlayerZone(moved.box) && moved.(box := w.player.base.box) == w.player.base
    requires 0.0 <= dt
    requires 0.0 <= draws.spawnX < 1.0
    requires |draws.redraws| > |w.enemies|
    requires forall j :: 0 <= j < |draws.redraws| ==> IsUnit(draws.redraws[j])
    ensures var fired := AdvanceFrom(w, moved, draws, dt);
            && InPlayerZone(fired.player.base.box)
            && fired.player.base.shield == w.player.base.shield
            && fired.player.lives == w.player.lives
            && fired.player.base.movementSpeed == w.player.base.movementSpeed
            && forall j :: 0 <= j < |fired.enemies| ==> EnemyOk(fired.enemies[j])
  {
    var spawn := Spawning.SpawnEnemyShips(w.spawnTimer, w.enemies, dt, draws.spawnX);
    forall j | 0 <= j < |spawn.enemies|
      ensures EnemyOk(spawn.enemies[j])
    {
      if j >= |w.enemies| {
        assert spawn.enemies[j] == Spawning.SpawnedEnemy(draws.spawnX);
      }
    }
    var enemies := MoveAndUpdateEnemies(spawn.enemies, dt, draws.redraws);
    var fired := AdvanceFrom(w, moved, draws, dt);
    forall j | 0 <= j < |fired.enemies|
      ensures EnemyOk(fired.enemies[j])
    {
      assert fired.enemies[j].(base := enemies[j].base) == enemies[j];
    }
  }

  /** The frame after an input step that kept the player in the lower half
      keeps the invariant: the player stays in the lower half with a
      shield in [0, 6], every enemy stays in the upper half with a shield
      in [0, 4] and a unit heading, the background offsets stay in
      [0, 128], and the score stays a non-negative multiple of 100. */
  lemma FramePreservesValid(w: World, moved: Ships.Ship, draws: Draws, dt: real, finished: Explosion -> bool)
    requires Valid(w)
    requires InPlayerZone(moved.box) && moved.(box := w.player.base.box) == w.player.base
    requires 0.0 <= dt
    requires 0.0 <= draws.spawnX < 1.0
    requires |draws.redraws| > |w.enemies|
    requires forall j :: 0 <= j < |draws.redraws| ==> IsUnit(draws.redraws[j])
    ensures Valid(Frame(w, moved, draws, dt, finished))
  {
    FrameKeepsEnemies(w, moved, draws, dt, finished);
    FrameKeepsPlayer(w, moved, draws, dt, finished);
    FrameKeepsScore(w, moved, draws, dt, finished);
  }

  /** The game's own frame keeps the invariant whenever the arrow keys and
      the touch screen are not used in the same frame. When they are, the
      player can leave the world (Movement.MixedInputLeavesZone). */
  lemma RenderPreservesValid(w: World, input: Movement.Input, draws: Draws, dt: real, finished: Explosion -> bool)
    requires Valid(w)
    requires input.touch.None? || !Movement.AnyKey(input.keys)
    requires 0.0 <= dt
    requires 0.0 <= draws.spawnX < 1.0
    requires |draws.redraws| > |w.enemies|
    requires forall j :: 0 <= j < |draws.redraws| ==> IsUnit(draws.redraws[j])
    ensures Valid(Render(w, input, draws, dt, finished))
  {
    FramePreservesValid(w, Movement.DetectInput(w.player.base, input, dt), draws, dt, finished);
  }

  /** The corrected frame keeps the invariant for every input. */
  lemma RenderCorrectedPreservesValid(w: World, input: Movement.Input, draws: Draws, dt: real, finished: Explosion -> bool)
    requires Valid(w)
    requires 0.0 <= dt
    requires 0.0 <= draws.spawnX < 1.0
    requires |draws.redraws| > |w.enemies|
    requires forall j :: 0 <= j < |draws.redraws| ==> IsUnit(draws.redraws[j])
    ensures Valid(RenderCorrected(w, input, draws, dt, finished))
  {
    FramePreservesValid(w, Movement.DetectInputCorrected(w.player.base, input, dt), draws, dt, finished);
  }

  /** Without mixed input the corrected frame is the game's frame. */
  lemma CorrectedFrameAgrees(w: World, input: Movement.Input, draws: Draws, dt: real, finished: Explosion -> bool)
    requires |w.offsets| == 4
    requires |draws.redraws| > |w.enemies|
    requires input.touch.None? || !Movement.AnyKey(input.keys)
    ensures RenderCorrected(w, input, draws, dt, finished) == Render(w, input, draws, dt, finished)
  {
    Movement.CorrectionAgreesWithoutMixing(w.player.base, input, dt);
  }

  /** Every enemy that survives the frame is still EnemyOk. */
  lemma FrameKeepsEnemies(w: World, moved: Ships.Ship, draws: Draws, dt: real, finished: Explosion -> bool)
    requires Valid(w)
    requires InPlayerZone(moved.box) && moved.(box := w.player.base.box) == w.player.base
    requires 0.0 <= dt
    requires 0.0 <= draws.spawnX < 1.0
    requires |draws.redraws| > |w.enemies|
    requires forall j :: 0 <= j < |draws.redraws| ==> IsUnit(draws.redraws[j])
    ensures var r := Frame(w, moved, draws, dt, finished);
            forall j :: 0 <= j < |r.enemies| ==> EnemyOk(r.enemies[j])
  {
    var fired := AdvanceFrom(w, moved, draws, dt);
    AdvanceKeepsShips(w, moved, draws, dt);
    var offsets := Effects.RenderBackground(w.offsets, dt);
    var spawn := Spawning.SpawnEnemyShips(w.spawnTimer, w.enemies, dt, draws.spawnX);
    assert Frame(w, moved, draws, dt, finished) == Collide(w, offsets, spawn.timer, fired, dt, finished);
    CollideKeepsEnemies(w, offsets, spawn.timer, fired, dt, finished);
  }

  lemma CollideKeepsEnemies(w: World, offsets: seq<real>, spawnTimer: real, fired: Lasers.Firing, dt: real, finished: Explosion -> bool)
    requires forall j :: 0 <= j < |fired.enemies| ==> EnemyOk(fired.enemies[j])
    ensures var r := Collide(w, offsets, spawnTimer, fired, dt, finished);
            forall j :: 0 <= j < |r.enemies| ==> EnemyOk(r.enemies[j])
  {
    PlayerPassKeepsEnemyOk(fired.playerLasers, fired.enemies);
    assert Collide(w, offsets, spawnTimer, fired, dt, finished).enemies == Collisions.PlayerLaserPass(fired.playerLasers, fired.enemies).enemies;
  }

  /** Enemies that are hit but not destroyed only lose shield. */
  lemma PlayerPassKeepsEnemyOk(lasers: seq<Laser>, enemies: seq<Enemies.EnemyShip>)
    requires forall j :: 0 <= j < |enemies| ==> EnemyOk(enemies[j])
    ensures var r := Collisions.PlayerLaserPass(lasers, enemies);
            forall j :: 0 <= j < |r.enemies| ==> EnemyOk(r.enemies[j])
  {
    DamagePreservesEnemyOk();
    Collisions.PlayerPassPreserves(lasers, enemies, EnemyOk);
  }

  /** The player stays in the lower half with its speed, and its shield
      stays in [0, 6]; the background and the spawn clock stay in range. */
  lemma FrameKeepsPlayer(w: World, moved: Ships.Ship, draws: Draws, dt: real, finished: Explosion -> bool)
    requires Valid(w)
    requires InPlayerZone(moved.box) && moved.(box := w.player.base.box) == w.player.base
    requires 0.0 <= dt
    requires 0.0 <= draws.spawnX < 1.0
    requires |draws.redraws| > |w.enemies|
    requires forall j :: 0 <= j < |draws.redraws| ==> IsUnit(draws.redraws[j])
    ensures var r := Frame(w, moved, draws, dt, finished);
            && |r.offsets| == 4
            && (forall i :: 0 <= i < 4 ==> 0.0 <= r.offsets[i] <= WORLD_HEIGHT)
            && 0.0 <= r.spawnTimer
            && InPlayerZone(r.player.base.box)
            && 0.0 <= r.player.base.movementSpeed
            && 0 <= r.player.base.shield <= Collisions.PLAYER_SHIELD_REFILL
  {
    var fired := AdvanceFrom(w, moved, draws, dt);
    AdvanceKeepsShips(w, moved, draws, dt);
    var strikes := Collisions.EnemyLaserPass(fired.enemyLasers, fired.player);
    var offsets := Effects.RenderBackground(w.offsets, dt);
    assert forall i :: 0 <= i < 4 ==> 0.0 <= offsets[i] <= WORLD_HEIGHT;
  }

  /** The score only ever grows by whole kills. */
  lemma FrameKeepsScore(w: World, moved: Ships.Ship, draws: Draws, dt: real, finished: Explosion -> bool)
    requires |w.offsets| == 4
    requires |draws.redraws| > |w.enemies|
    requires 0 <= w.score && w.score % Collisions.KILL_SCORE == 0
    ensures var r := Frame(w, moved, draws, dt, finished);
            0 <= r.score && r.score % Collisions.KILL_SCORE == 0
  {
    var fired := AdvanceFrom(w, moved, draws, dt);
    var hits := Collisions.PlayerLaserPass(fired.playerLasers, fired.enemies);
    ScoreStep(w.score, |hits.wrecks|, Frame(w, moved, draws, dt, finished).score);
  }

  /** A hit on the shield leaves every other part of an enemy alone. */
  lemma DamagePreservesEnemyOk()
    ensures forall e :: EnemyOk(e) ==> EnemyOk(Collisions.Damaged(e))
  {
  }

  lemma ScoreStep(score: int, kills: nat, s: int)
    requires 0 <= score && score % Collisions.KILL_SCORE == 0
    requires s == score + Collisions.KILL_SCORE * kills
    ensures 0 <= s && s % Collisions.KILL_SCORE == 0
  {
  }
}

=== FILE: geometry.dfy ===
/** Axis-aligned rectangles and plane vectors in world units, standing in
    for libGDX's Rectangle and Vector2. */
module Geometry {

  /** A rectangle given by its lower-left corner and its extent. */
  datatype Rect = Rect(x: real, y: real, width: real, height: real)

  datatype Vec2 = Vec2(x: real, y: real)

  function Centre(r: Rect): Vec2
  {
    Vec2(r.x + r.width / 2.0, r.y + r.height / 2.0)
  }

  /** The overlap test of libGDX's Rectangle.overlaps, which is not part of
      this model and is taken to be exactly this strict comparison. */
  predicate Overlaps(a: Rect, b: Rect)
  {
    a.x < b.x + b.width && a.x + a.width > b.x &&
    a.y < b.y + b.height && a.y + a.height > b.y
  }

  /** (px, py) lies strictly inside r. */
  predicate Inside(r: Rect, px: real, py: real)
  {
    r.x < px < r.x + r.width && r.y < py < r.y + r.height
  }

  /** A unit vector, such as (sin b, cos b) for a bearing b. */
  predicate IsUnit(v: Vec2)
  {
    v.x * v.x + v.y * v.y == 1.0
  }

  /** For rectangles of positive size the overlap test is the geometric
      one: the two rectangles share an interior point. */
  lemma OverlapsIffCommonPoint(a: Rect, b: Rect)
    requires a.width > 0.0 && a.height > 0.0
    requires b.width > 0.0 && b.height > 0.0
    ensures Overlaps(a, b) <==> exists px, py :: Inside(a, px, py) && Inside(b, px, py)
  {
    if Overlaps(a, b) {
      var left := if a.x < b.x then b.x else a.x;
      var right := if a.x + a.width < b.x + b.width then a.x + a.width else b.x + b.width;
      var bottom := if a.y < b.y then b.y else a.y;
      var top := if a.y + a.height < b.y + b.height then a.y + a.height else b.y + b.height;
      var px, py := (left + right) / 2.0, (bottom + top) / 2.0;
      assert Inside(a, px, py) && Inside(b, px, py);
    }
  }
}

=== FILE: lasers.dfy ===
/** Laser firing, flight and removal at the edges of the world. */
module Lasers {

  import opened Projectiles
  import opened Arena
  import opened Seqs
  import Ships
  import Enemies
  import Players

  /** One frame of flight for a player laser (up) and an enemy laser (down). */
  function Ascend(dt: real): Laser -> Laser
  {
    (l: Laser) => l.(y := l.y + l.speed * dt)
  }

  function Descend(dt: real): Laser -> Laser
  {
    (l: Laser) => l.(y := l.y - l.speed * dt)
  }

  /** A player laser is gone once its bottom edge is above the top. */
  predicate BelowTop(l: Laser)
  {
    !(l.y > WORLD_HEIGHT)
  }

  /** An enemy laser is gone once its top edge is below the bottom. */
  predicate AboveBottom(l: Laser)
  {
    !(l.y + l.height < 0.0)
  }

  /** Moves every player laser up and drops those past the top; the
      survivors keep their order. */
  function AdvancePlayerLasers(lasers: seq<Laser>, dt: real): (r: seq<Laser>)
    ensures |r| <= |lasers|
    ensures forall i :: 0 <= i < |r| ==> r[i].y <= WORLD_HEIGHT
    ensures forall i :: 0 <= i < |lasers| ==>
              (Ascend(dt)(lasers[i]) in r <==> Ascend(dt)(lasers[i]).y <= WORLD_HEIGHT)
    ensures forall i :: 0 <= i < |r| ==> exists j :: 0 <= j < |lasers| && r[i] == Ascend(dt)(lasers[j])
    ensures Subsequence(r, Map(lasers, Ascend(dt)))
    ensures |r| == Count(Map(lasers, Ascend(dt)), BelowTop)
  {
    Filter(Map(lasers, Ascend(dt)), BelowTop)
  }

  /** Moves every enemy laser down and drops those past the bottom; the
      survivors keep their order. */
  function AdvanceEnemyLasers(lasers: seq<Laser>, dt: real): (r: seq<Laser>)
    ensures |r| <= |lasers|
    ensures forall i :: 0 <= i < |r| ==> 0.0 <= r[i].y + r[i].height
    ensures forall i :: 0 <= i < |lasers| ==>
              (Descend(dt)(lasers[i]) in r <==> 0.0 <= Descend(dt)(lasers[i]).y + Descend(dt)(lasers[i]).height)
    ensures forall i :: 0 <= i < |r| ==> exists j :: 0 <= j < |lasers| && r[i] == Descend(dt)(lasers[j])
    ensures Subsequence(r, Map(lasers, Descend(dt)))
    ensures |r| == Count(Map(lasers, Descend(dt)), AboveBottom)
  {
    Filter(Map(lasers, Descend(dt)), AboveBottom)
  }

  predicate Ready(e: Enemies.EnemyShip)
  {
    Ships.CanFireLaser(e.base)
  }

  datatype Salvo = Salvo(enemies: seq<Enemies.EnemyShip>, lasers: seq<Laser>)

  /** Every enemy whose cooldown has elapsed fires its two lasers, in list
      order; the others are left as they are. */
  function EnemiesFire(enemies: seq<Enemies.EnemyShip>): (r: Salvo)
    ensures |r.enemies| == |enemies|
    ensures |r.lasers| == 2 * Count(enemies, Ready)
    ensures forall i :: 0 <= i < |enemies| ==>
              r.enemies[i] == if Ready(enemies[i]) then Enemies.FireLasers(enemies[i]).shooter else enemies[i]
  {
    if |enemies| == 0 then Salvo([], [])
    else
      var rest := EnemiesFire(enemies[1..]);
      if Ready(enemies[0]) then
        var v := Enemies.FireLasers(enemies[0]);
        Salvo([v.shooter] + rest.enemies, v.lasers + rest.lasers)
      else
        Salvo([enemies[0]] + rest.enemies, rest.lasers)
  }

  /** The two lasers an enemy fires when it is ready. */
  function Shots(e: Enemies.EnemyShip): seq<Laser>
  {
    Enemies.FireLasers(e).lasers
  }

  /** The salvo's lasers are exactly the volleys of the ready enemies,
      one after another in list order. */
  lemma {:induction false} EnemiesFireInOrder(enemies: seq<Enemies.EnemyShip>)
    ensures EnemiesFire(enemies).lasers == Flatten(Map(Filter(enemies, Ready), Shots))
  {
    if |enemies| > 0 {
      var rest := enemies[1..];
      EnemiesFireInOrder(rest);
      var f := Filter(enemies, Ready);
      if Ready(enemies[0]) {
        assert f == [enemies[0]] + Filter(rest, Ready);
        assert f[1..] == Filter(rest, Ready);
        assert Map(f, Shots) == [Shots(enemies[0])] + Map(Filter(rest, Ready), Shots);
        assert Map(f, Shots)[1..] == Map(Filter(rest, Ready), Shots);
      } else {
        assert f == Filter(rest, Ready);
      }
    }
  }

  /** after is what one frame of flight by step leaves of the lasers of
      before followed by those of added, keeping those that satisfy keep:
      each moved laser, old or added, is there iff it is kept, and the
      survivors are in their original order with the old ones first. */
  ghost predicate Flight(before: seq<Laser>, added: seq<Laser>, step: Laser -> Laser, keep: Laser -> bool, after: seq<Laser>)
  {
    && (forall i :: 0 <= i < |before| ==> (step(before[i]) in after <==> keep(step(before[i]))))
    && (forall k :: 0 <= k < |added| ==> (step(added[k]) in after <==> keep(step(added[k]))))
    && Subsequence(after, Map(before + added, step))
    && |after| == Count(Map(before + added, step), keep)
  }

  /** Lasers appended after the before ones fly and are pruned like them. */
  lemma AscendAppended(before: seq<Laser>, added: seq<Laser>, dt: real)
    ensures Flight(before, added, Ascend(dt), BelowTop, AdvancePlayerLasers(before + added, dt))
  {
    var all := before + added;
    assert forall i :: 0 <= i < |before| ==> all[i] == before[i];
    assert forall k :: 0 <= k < |added| ==> all[|before| + k] == added[k];
  }

  lemma DescendAppended(before: seq<Laser>, added: seq<Laser>, dt: real)
    ensures Flight(before, added, Descend(dt), AboveBottom, AdvanceEnemyLasers(before + added, dt))
  {
    var all := before + added;
    assert forall i :: 0 <= i < |before| ==> all[i] == before[i];
    assert forall k :: 0 <= k < |added| ==> all[|before| + k] == added[k];
  }

  datatype Firing = Firing(
    player: Players.PlayerShip,
    enemies: seq<Enemies.EnemyShip>,
    playerLasers: seq<Laser>,
    enemyLasers: seq<Laser>)

  /** The lasers the player adds this frame: its two, if it is ready. */
  function PlayerVolley(player: Players.PlayerShip): seq<Laser>
  {
    if Ships.CanFireLaser(player.base) then Players.FireLasers(player).lasers else []
  }

  /** The player fires if ready, then every ready enemy; then all lasers fly
      and those that left the world are removed. */
  function RenderLasers(
    player: Players.PlayerShip, enemies: seq<Enemies.EnemyShip>,
    playerLasers: seq<Laser>, enemyLasers: seq<Laser>, dt: real): (r: Firing)
    ensures Ships.CanFireLaser(player.base) ==> r.player.base.timeSinceLastShot == 0.0
    ensures !Ships.CanFireLaser(player.base) ==> r.player == player
    ensures Flight(playerLasers, PlayerVolley(player), Ascend(dt), BelowTop, r.playerLasers)
    ensures Flight(enemyLasers, EnemiesFire(enemies).lasers, Descend(dt), AboveBottom, r.enemyLasers)
    ensures r.player.(base := player.base) == player
    ensures r.player.base.(timeSinceLastShot := player.base.timeSinceLastShot) == player.base
    ensures r.enemies == EnemiesFire(enemies).enemies
    ensures |r.enemies| == |enemies|
    ensures forall i :: 0 <= i < |enemies| ==>
              r.enemies[i].(base := enemies[i].base) == enemies[i] &&
              r.enemies[i].base.(timeSinceLastShot := enemies[i].base.timeSinceLastShot) == enemies[i].base
    ensures |r.playerLasers| <= |playerLasers| + 2
    ensures |r.enemyLasers| <= |enemyLasers| + 2 * Count(enemies, Ready)
    ensures forall i :: 0 <= i < |r.playerLasers| ==> r.playerLasers[i].y <= WORLD_HEIGHT
    ensures forall i :: 0 <= i < |r.enemyLasers| ==> 0.0 <= r.enemyLasers[i].y + r.enemyLasers[i].height
  {
    var volley := if Ships.CanFireLaser(player.base) then Players.FireLasers(player) else Projectiles.Volley(player, []);
    assert volley.lasers == PlayerVolley(player);
    var salvo := EnemiesFire(enemies);
    AscendAppended(playerLasers, volley.lasers, dt);
    DescendAppended(enemyLasers, salvo.lasers, dt);
    Firing(volley.shooter, salvo.enemies,
           AdvancePlayerLasers(playerLasers + volley.lasers, dt),
           AdvanceEnemyLasers(enemyLasers + salvo.lasers, dt))
  }
}

=== FILE: movement.dfy ===
/** How ships move each frame: the player from the keyboard and the
    touch screen, enemies along their heading, each clamped to its half. */
module Movement {

  import opened Wrappers
  import opened Geometry
  import opened Arena
  import Ships
  import Enemies

  datatype Keys = Keys(right: bool, up: bool, left: bool, down: bool)

  /** One frame of input. touch is the movement the touch asks for,
      (xMove, yMove), already scaled to the ship's speed; None when the
      screen is not touched or the touch is within the movement threshold. */
  datatype Input = Input(keys: Keys, touch: Option<Vec2>)

  predicate AnyKey(k: Keys)
  {
    k.right || k.up || k.left || k.down
  }

  /** The vertical speed factor: the world is taller than it is wide. */
  function Climb(speed: real, dt: real): real
  {
    speed * dt * WORLD_HEIGHT / WORLD_WIDTH
  }

  /** The four arrow keys in the order right, up, left, down, each step
      capped by the limits lim, which are computed once before any key.
      Each axis moves by what its two keys ask for (KeyAxis). */
  function KeyboardMove(s: Ships.Ship, lim: Limits, keys: Keys, dt: real): (r: Ships.Ship)
    ensures r.box.x == s.box.x + KeyAxis(keys.right, keys.left, lim.left, lim.right, s.movementSpeed * dt)
    ensures r.box.y == s.box.y + KeyAxis(keys.up, keys.down, lim.down, lim.up, Climb(s.movementSpeed, dt))
    ensures r.(box := s.box) == s
    ensures r.box.width == s.box.width && r.box.height == s.box.height
    ensures !AnyKey(keys) ==> r == s
    ensures (lim == PlayerLimits(s.box) && InPlayerZone(s.box) &&
             0.0 <= s.movementSpeed && 0.0 <= dt) ==> InPlayerZone(r.box)
  {
    var step := s.movementSpeed * dt;
    var climb := Climb(s.movementSpeed, dt);
    assert 0.0 <= s.movementSpeed && 0.0 <= dt ==> 0.0 <= step && 0.0 <= climb;
    KeySteps(s, lim, keys, step, climb)
  }

  /** The keyboard moves for a horizontal step and a vertical climb. The
      game translates once per pressed key; translations compose by adding
      (Ships.TranslateCompose), so the four are summed per axis here. */
  function KeySteps(s: Ships.Ship, lim: Limits, keys: Keys, step: real, climb: real): (r: Ships.Ship)
    ensures r.box.x == s.box.x + KeyAxis(keys.right, keys.left, lim.left, lim.right, step)
    ensures r.box.y == s.box.y + KeyAxis(keys.up, keys.down, lim.down, lim.up, climb)
    ensures r.(box := s.box) == s
    ensures r.box.width == s.box.width && r.box.height == s.box.height
    ensures !AnyKey(keys) ==> r == s
    ensures (lim == PlayerLimits(s.box) && InPlayerZone(s.box) &&
             0.0 <= step && 0.0 <= climb) ==> InPlayerZone(r.box)
  {
    var dx := KeyAxis(keys.right, keys.left, lim.left, lim.right, step);
    var dy := KeyAxis(keys.up, keys.down, lim.down, lim.up, climb);
    Ships.Translate(s, dx, dy)
  }

  /** The displacement along one axis from its two opposite keys, each
      capped by the limit it was computed with. A lone key takes its full
      step when it fits and stops at the limit when it does not. Even
      though the limits are not recomputed between the two keys, the sum
      stays within them. */
  function KeyAxis(forward: bool, backward: bool, lo: real, hi: real, step: real): (d: real)
    ensures lo <= 0.0 <= hi && 0.0 <= step ==> lo <= d <= hi
    ensures !forward && !backward ==> d == 0.0
    ensures forward && !backward && 0.0 <= step <= hi ==> d == step
    ensures forward && !backward && 0.0 <= hi < step ==> d == hi
    ensures backward && !forward && lo <= -step <= 0.0 ==> d == -step
    ensures backward && !forward && -step < lo <= 0.0 ==> d == lo
    ensures forward && backward && lo <= -step <= 0.0 <= step <= hi ==> d == 0.0
  {
    (if forward && hi > 0.0 then Min(step, hi) else 0.0) +
    (if backward && lo < 0.0 then Max(-step, lo) else 0.0)
  }

  /** The two opposite keys act independently: each moves the ship as it
      would alone, both capped by the limits taken before either moved. */
  lemma KeyAxisKeysAdd(forward: bool, backward: bool, lo: real, hi: real, step: real)
    ensures KeyAxis(forward, backward, lo, hi, step)
            == KeyAxis(forward, false, lo, hi, step) + KeyAxis(false, backward, lo, hi, step)
  {
  }

  /** The touch step: each axis clamped against the given limits. A move
      within the limits is taken in full; one past them stops at the limit. */
  function TouchMove(s: Ships.Ship, lim: Limits, move: Vec2): (r: Ships.Ship)
    ensures lim.left <= move.x <= lim.right ==> r.box.x == s.box.x + move.x
    ensures lim.down <= move.y <= lim.up ==> r.box.y == s.box.y + move.y
    ensures 0.0 <= lim.right < move.x ==> r.box.x == s.box.x + lim.right
    ensures move.x < lim.left <= 0.0 ==> r.box.x == s.box.x + lim.left
    ensures 0.0 <= lim.up < move.y ==> r.box.y == s.box.y + lim.up
    ensures move.y < lim.down <= 0.0 ==> r.box.y == s.box.y + lim.down
    ensures r.(box := s.box) == s
    ensures r.box.width == s.box.width && r.box.height == s.box.height
    ensures lim == PlayerLimits(s.box) && InPlayerZone(s.box) ==> InPlayerZone(r.box)
  {
    Ships.Translate(s, Clamp(move.x, lim.left, lim.right), Clamp(move.y, lim.down, lim.up))
  }

  /** The player's movement as the game computes it: the limits are taken
      once, before the keyboard moves, and the touch step reuses them.
      It stays in the player's half when only one of the two sources is
      active, but not always when both are (see MixedInputLeavesZone). */
  function DetectInput(s: Ships.Ship, input: Input, dt: real): (r: Ships.Ship)
    ensures input.touch.None? ==> r == KeyboardMove(s, PlayerLimits(s.box), input.keys, dt)
    ensures input.touch.Some? ==>
              var k := KeyboardMove(s, PlayerLimits(s.box), input.keys, dt);
              var lim := PlayerLimits(s.box);
              var m := input.touch.value;
              && (lim.left <= m.x <= lim.right ==> r.box.x == k.box.x + m.x)
              && (lim.down <= m.y <= lim.up ==> r.box.y == k.box.y + m.y)
              && (0.0 <= lim.right < m.x ==> r.box.x == k.box.x + lim.right)
              && (0.0 <= lim.up < m.y ==> r.box.y == k.box.y + lim.up)
              && (m.x < lim.left <= 0.0 ==> r.box.x == k.box.x + lim.left)
              && (m.y < lim.down <= 0.0 ==> r.box.y == k.box.y + lim.down)
    ensures r.(box := s.box) == s
    ensures r.box.width == s.box.width && r.box.height == s.box.height
    ensures (InPlayerZone(s.box) && 0.0 <= s.movementSpeed && 0.0 <= dt &&
             (input.touch.None? || !AnyKey(input.keys))) ==> InPlayerZone(r.box)
  {
    var lim := PlayerLimits(s.box);
    var k := KeyboardMove(s, lim, input.keys, dt);
    match input.touch
    case None => k
    case Some(move) => TouchMove(k, lim, move)
  }

  /** Arrow key right and a full-speed touch to the right in the same
      frame: the ship starts one unit from the right edge and ends one unit
      past it. */
  lemma MixedInputLeavesZone()
    ensures var s := Ships.NewShip(25.0, 6, 66.0, 32.0, 10.0, 10.0, 0.4, 4.0, 45.0, 0.5);
            var input := Input(Keys(true, false, false, false), Some(Vec2(25.0, 0.0)));
            InPlayerZone(s.box) && !InPlayerZone(DetectInput(s, input, 1.0).box)
  {
  }

  /** The player's movement with the touch step clamped against the limits
      left after the keyboard moves; it always stays in the player's half. */
  function DetectInputCorrected(s: Ships.Ship, input: Input, dt: real): (r: Ships.Ship)
    ensures input.touch.None? ==> r == KeyboardMove(s, PlayerLimits(s.box), input.keys, dt)
    ensures input.touch.Some? ==>
              var k := KeyboardMove(s, PlayerLimits(s.box), input.keys, dt);
              var lim := PlayerLimits(k.box);
              var m := input.touch.value;
              && (lim.left <= m.x <= lim.right ==> r.box.x == k.box.x + m.x)
              && (lim.down <= m.y <= lim.up ==> r.box.y == k.box.y + m.y)
              && (0.0 <= lim.right < m.x ==> r.box.x == k.box.x + lim.right)
              && (0.0 <= lim.up < m.y ==> r.box.y == k.box.y + lim.up)
              && (m.x < lim.left <= 0.0 ==> r.box.x == k.box.x + lim.left)
              && (m.y < lim.down <= 0.0 ==> r.box.y == k.box.y + lim.down)
    ensures r.(box := s.box) == s
    ensures r.box.width == s.box.width && r.box.height == s.box.height
    ensures InPlayerZone(s.box) && 0.0 <= s.movementSpeed && 0.0 <= dt ==> InPlayerZone(r.box)
  {
    var k := KeyboardMove(s, PlayerLimits(s.box), input.keys, dt);
    match input.touch
    case None => k
    case Some(move) => TouchMove(k, PlayerLimits(k.box), move)
  }

  /** The correction changes nothing unless keys and touch are combined. */
  lemma CorrectionAgreesWithoutMixing(s: Ships.Ship, input: Input, dt: real)
    requires input.touch.None? || !AnyKey(input.keys)
    ensures DetectInputCorrected(s, input, dt) == DetectInput(s, input, dt)
  {
  }

  /** The displacement the heading asks for in one frame, before clamping. */
  function Drift(e: Enemies.EnemyShip, dt: real): Vec2
  {
    Vec2(e.heading.x * e.base.movementSpeed * dt, e.heading.y * Climb(e.base.movementSpeed, dt))
  }

  /** Moves an enemy along its current heading, each axis clamped to the
      upper half. The clamp only bites when the full drift would leave it. */
  function MoveEnemy(e: Enemies.EnemyShip, dt: real): (r: Enemies.EnemyShip)
    ensures r.(base := e.base) == e && r.base.(box := e.base.box) == e.base
    ensures r.base.box.width == e.base.box.width && r.base.box.height == e.base.box.height
    ensures InEnemyZone(e.base.box) ==> InEnemyZone(r.base.box)
    ensures var d := Drift(e, dt);
            InEnemyZone(e.base.box.(x := e.base.box.x + d.x, y := e.base.box.y + d.y)) ==>
              r.base.box.x == e.base.box.x + d.x && r.base.box.y == e.base.box.y + d.y
    ensures var lim := EnemyLimits(e.base.box);
            var d := Drift(e, dt);
            && (lim.left <= d.x <= lim.right ==> r.base.box.x == e.base.box.x + d.x)
            && (0.0 <= lim.right < d.x ==> r.base.box.x == e.base.box.x + lim.right)
            && (d.x < lim.left <= 0.0 ==> r.base.box.x == e.base.box.x + lim.left)
            && (lim.down <= d.y <= lim.up ==> r.base.box.y == e.base.box.y + d.y)
            && (0.0 <= lim.up < d.y ==> r.base.box.y == e.base.box.y + lim.up)
            && (d.y < lim.down <= 0.0 ==> r.base.box.y == e.base.box.y + lim.down)
  {
    var lim := EnemyLimits(e.base.box);
    var d := Drift(e, dt);
    e.(base := Ships.Translate(e.base, Clamp(d.x, lim.left, lim.right), Clamp(d.y, lim.down, lim.up)))
  }
}

=== FILE: players.dfy ===
/** The player's ship: a shared ship state plus a lives counter. */
module Players {

  import opened Geometry
  import opened Projectiles
  import Ships

  const INITIAL_LIVES: int := 3

  datatype PlayerShip = PlayerShip(base: Ships.Ship, lives: int)

  function NewPlayerShip(
    movementSpeed: real, shield: int,
    xCentre: real, yCentre: real,
    width: real, height: real,
    laserWidth: real, laserHeight: real,
    laserSpeed: real, timeBetweenShots: real): (p: PlayerShip)
    ensures p.lives == 3
    ensures p.base == Ships.NewShip(movementSpeed, shield, xCentre, yCentre, width, height,
                                    laserWidth, laserHeight, laserSpeed, timeBetweenShots)
  {
    PlayerShip(Ships.NewShip(movementSpeed, shield, xCentre, yCentre, width, height,
                             laserWidth, laserHeight, laserSpeed, timeBetweenShots),
               INITIAL_LIVES)
  }

  /** Two lasers at 18% and 82% of the width, 45% of the way up the box,
      with the ship's laser size and speed; the cooldown restarts. */
  function FireLasers(p: PlayerShip): (r: Volley<PlayerShip>)
    ensures |r.lasers| == 2
    ensures r.lasers[0].x == p.base.box.x + p.base.box.width * 0.18
    ensures r.lasers[1].x == p.base.box.x + p.base.box.width * 0.82
    ensures forall i :: 0 <= i < 2 ==>
              r.lasers[i].y == p.base.box.y + p.base.box.height * 0.45 &&
              r.lasers[i].width == p.base.laserWidth &&
              r.lasers[i].height == p.base.laserHeight &&
              r.lasers[i].speed == p.base.laserSpeed
    ensures r.lasers[0].x + r.lasers[1].x == 2.0 * Centre(p.base.box).x
    ensures r.shooter == p.(base := p.base.(timeSinceLastShot := 0.0))
    ensures p.base.timeBetweenShots > 0.0 ==> !Ships.CanFireLaser(r.shooter.base)
  {
    var b := p.base.box;
    var y := b.y + b.height * 0.45;
    Volley(p.(base := p.base.(timeSinceLastShot := 0.0)),
           [Laser(b.x + b.width * 0.18, y, p.base.laserWidth, p.base.laserHeight, p.base.laserSpeed),
            Laser(b.x + b.width * 0.82, y, p.base.laserWidth, p.base.laserHeight, p.base.laserSpeed)])
  }
}

=== FILE: projectiles.dfy ===
/** Lasers and explosions. Their classes are not part of this model; they
    are plain records here, with only the fields the game loop reads. */
module Projectiles {

  import opened Geometry

  /** A laser bolt. (x, y) are the position arguments its constructor is
      given, taken to be the lower-left corner of its bounding box. */
  datatype Laser = Laser(x: real, y: real, width: real, height: real, speed: real)

  function Box(l: Laser): Rect
  {
    Rect(l.x, l.y, l.width, l.height)
  }

  /** What a ship's fire operation returns: the ship after firing and the
      lasers it fired. */
  datatype Volley<S> = Volley(shooter: S, lasers: seq<Laser>)

  /** An explosion: a copy of the destroyed ship's box, the time it has been
      shown and how long it lasts. */
  datatype Explosion = Explosion(box: Rect, elapsed: real, duration: real)

  function NewExplosion(box: Rect, duration: real): Explosion
  {
    Explosion(box, 0.0, duration)
  }

  /** One frame of an explosion's animation clock. */
  function Advance(e: Explosion, dt: real): Explosion
  {
    e.(elapsed := e.elapsed + dt)
  }

  /** The explosion of the given duration that starts at a box. */
  function Kindle(duration: real): Rect -> Explosion
  {
    (b: Rect) => NewExplosion(b, duration)
  }
}

=== FILE: seqs.dfy ===
/** Order-preserving map, filter and count over sequences. The game loop
    walks its linked lists once with a list iterator, updating and removing
    elements as it goes; over immutable sequences that walk is a Map
    followed by a Filter. */
module Seqs {

  /** Applies f to every element, keeping positions. */
  function Map<T, U>(s: seq<T>, f: T -> U): (r: seq<U>)
    ensures |r| == |s|
    ensures forall i :: 0 <= i < |s| ==> r[i] == f(s[i])
  {
    if |s| == 0 then [] else [f(s[0])] + Map(s[1..], f)
  }

  /** r is s with some elements left out and the rest in their order. */
  ghost predicate Subsequence<T>(r: seq<T>, s: seq<T>)
    decreases |s|
  {
    |r| == 0 ||
    (|s| > 0 && ((r[0] == s[0] && Subsequence(r[1..], s[1..])) || Subsequence(r, s[1..])))
  }

  /** A subsequence of s stays one when an element is put in front of s,
      whether or not the same element is put in front of it too. */
  lemma SubsequenceCons<T>(x: T, r: seq<T>, s: seq<T>)
    requires Subsequence(r, s)
    ensures Subsequence(r, [x] + s)
    ensures Subsequence([x] + r, [x] + s)
  {
    assert ([x] + s)[1..] == s;
    assert ([x] + r)[1..] == r;
  }

  lemma {:induction false} SubsequenceRefl<T>(s: seq<T>)
    ensures Subsequence(s, s)
    decreases |s|
  {
    if |s| > 0 {
      SubsequenceRefl(s[1..]);
    }
  }

  lemma TailOfSnoc<T>(s: seq<T>, x: T)
    requires |s| > 0
    ensures (s + [x])[0] == s[0] && (s + [x])[1..] == s[1..] + [x]
  {
  }

  /** Leaving out one element gives a subsequence. */
  lemma {:induction false} SubsequenceDrop<T>(s: seq<T>, i: nat)
    requires i < |s|
    ensures Subsequence(s[..i] + s[i + 1..], s)
    decreases i
  {
    if i == 0 {
      assert s[..0] + s[1..] == s[1..];
      SubsequenceRefl(s[1..]);
    } else {
      var r := s[..i] + s[i + 1..];
      assert r[0] == s[0];
      assert r[1..] == s[1..][..i - 1] + s[1..][i..];
      SubsequenceDrop(s[1..], i - 1);
    }
  }

  /** A subsequence of a subsequence is a subsequence. */
  lemma {:induction false} SubsequenceTrans<T>(a: seq<T>, b: seq<T>, c: seq<T>)
    requires Subsequence(a, b) && Subsequence(b, c)
    ensures Subsequence(a, c)
    decreases |c|
  {
    if |a| > 0 {
      if b[0] == c[0] && Subsequence(b[1..], c[1..]) {
        if a[0] == b[0] && Subsequence(a[1..], b[1..]) {
          SubsequenceTrans(a[1..], b[1..], c[1..]);
        } else {
          SubsequenceTrans(a, b[1..], c[1..]);
        }
      } else {
        SubsequenceTrans(a, b, c[1..]);
      }
    }
  }

  /** The elements satisfying keep, in their original order. */
  function Filter<T>(s: seq<T>, keep: T -> bool): (r: seq<T>)
    ensures |r| <= |s|
    ensures forall i :: 0 <= i < |r| ==> r[i] in s && keep(r[i])
    ensures forall i :: 0 <= i < |s| && keep(s[i]) ==> s[i] in r
    ensures Subsequence(r, s)
  {
    if |s| == 0 then []
    else if keep(s[0]) then
      var rest := Filter(s[1..], keep);
      assert ([s[0]] + rest)[1..] == rest;
      [s[0]] + rest
    else Filter(s[1..], keep)
  }

  /** How many elements satisfy keep. */
  function Count<T>(s: seq<T>, keep: T -> bool): (n: nat)
    ensures n == |Filter(s, keep)|
  {
    if |s| == 0 then 0
    else (if keep(s[0]) then 1 else 0) + Count(s[1..], keep)
  }

  /** The concatenation of a sequence of sequences, in order. */
  function Flatten<T>(ss: seq<seq<T>>): seq<T>
  {
    if |ss| == 0 then [] else ss[0] + Flatten(ss[1..])
  }
}

=== FILE: ships.dfy ===
/** The state and operations every ship shares: position, shield, and the
    laser cooldown. */
module Ships {

  import opened Geometry

  datatype Ship = Ship(
    movementSpeed: real,
    shield: int,
    box: Rect,
    laserWidth: real,
    laserHeight: real,
    laserSpeed: real,
    timeBetweenShots: real,
    timeSinceLastShot: real)

  /** A ship centred on (xCentre, yCentre) that has not yet fired. */
  function NewShip(
    movementSpeed: real, shield: int,
    xCentre: real, yCentre: real,
    width: real, height: real,
    laserWidth: real, laserHeight: real,
    laserSpeed: real, timeBetweenShots: real): (s: Ship)
    ensures Centre(s.box) == Vec2(xCentre, yCentre)
    ensures s.box.width == width && s.box.height == height
    ensures s.timeSinceLastShot == 0.0
    ensures s.movementSpeed == movementSpeed && s.shield == shield
    ensures s.laserWidth == laserWidth && s.laserHeight == laserHeight
    ensures s.laserSpeed == laserSpeed && s.timeBetweenShots == timeBetweenShots
  {
    Ship(movementSpeed, shield,
         Rect(xCentre - width / 2.0, yCentre - height / 2.0, width, height),
         laserWidth, laserHeight, laserSpeed, timeBetweenShots, 0.0)
  }

  /** True iff the cooldown since the last volley has elapsed. */
  predicate CanFireLaser(s: Ship)
    ensures CanFireLaser(s) <==> s.timeBetweenShots <= s.timeSinceLastShot
  {
    s.timeSinceLastShot - s.timeBetweenShots >= 0.0
  }

  /** One frame of the cooldown clock; nothing but the clock moves. */
  function Update(s: Ship, dt: real): (r: Ship)
    ensures r.timeSinceLastShot - s.timeSinceLastShot == dt
    ensures r.(timeSinceLastShot := s.timeSinceLastShot) == s
    ensures 0.0 <= dt && CanFireLaser(s) ==> CanFireLaser(r)
  {
    s.(timeSinceLastShot := s.timeSinceLastShot + dt)
  }

  datatype HitOutcome = HitOutcome(ship: Ship, destroyed: bool)

  /** A laser strike: a positive shield absorbs it and loses one point;
      an exhausted shield means the ship is destroyed, shield untouched. */
  function HitAndCheckDestroyed(s: Ship): (r: HitOutcome)
    ensures r.destroyed <==> s.shield <= 0
    ensures r.destroyed ==> r.ship == s
    ensures !r.destroyed ==> r.ship.shield == s.shield - 1
    ensures r.ship.(shield := s.shield) == s
    ensures 0 <= s.shield ==> 0 <= r.ship.shield <= s.shield
  {
    if s.shield > 0 then HitOutcome(s.(shield := s.shield - 1), false)
    else HitOutcome(s, true)
  }

  /** The ship's box overlaps other; the test is symmetric. */
  predicate Intersects(s: Ship, other: Rect)
    ensures Intersects(s, other) <==> Overlaps(other, s.box)
  {
    Overlaps(s.box, other)
  }

  /** Moves the box by (dx, dy) without any bounds check. */
  function Translate(s: Ship, dx: real, dy: real): (r: Ship)
    ensures Centre(r.box) == Vec2(Centre(s.box).x + dx, Centre(s.box).y + dy)
    ensures r.box.width == s.box.width && r.box.height == s.box.height
    ensures r.(box := s.box) == s
  {
    s.(box := s.box.(x := s.box.x + dx, y := s.box.y + dy))
  }

  /** Translations compose by adding their displacements. */
  lemma TranslateCompose(s: Ship, dx1: real, dy1: real, dx2: real, dy2: real)
    ensures Translate(Translate(s, dx1, dy1), dx2, dy2) == Translate(s, dx1 + dx2, dy1 + dy2)
    ensures Translate(Translate(s, dx1, dy1), -dx1, -dy1) == s
  {
  }
}

=== FILE: spawning.dfy ===
/** The enemy spawn timer: at most one new enemy per frame, near the top
    of the world at a random horizontal position. */
module Spawning {

  import opened Geometry
  import opened Arena
  import Enemies

  const TIME_BETWEEN_ENEMY_SPAWNS: real := 3.0

  /** The enemy the spawner creates for a random draw in [0, 1). */
  function SpawnedEnemy(draw: real): (e: Enemies.EnemyShip)
    ensures e.base.shield == 4
    ensures e.base.box.y == 118.0 && e.base.box.width == 10.0 && e.base.box.height == 10.0
    ensures 0.0 <= draw < 1.0 ==> 0.0 <= e.base.box.x < 62.0 && InEnemyZone(e.base.box)
    ensures IsUnit(e.heading) && e.timeSinceLastDirectionChange == 0.0
  {
    Enemies.NewEnemyShip(15.0, 4,
                         draw * (WORLD_WIDTH - 10.0) + 5.0, WORLD_HEIGHT - 5.0,
                         10.0, 10.0,
                         0.3, 5.0,
                         30.0, 0.9)
  }

  datatype Spawn = Spawn(timer: real, enemies: seq<Enemies.EnemyShip>)

  /** One frame of the spawn timer. Only a timer strictly past the interval
      spawns; the interval is then subtracted, keeping the overshoot. */
  function SpawnEnemyShips(timer: real, enemies: seq<Enemies.EnemyShip>, dt: real, draw: real): (r: Spawn)
    ensures timer + dt > TIME_BETWEEN_ENEMY_SPAWNS ==> r.enemies == enemies + [SpawnedEnemy(draw)]
    ensures timer + dt <= TIME_BETWEEN_ENEMY_SPAWNS ==> r.enemies == enemies
    ensures r.timer + TIME_BETWEEN_ENEMY_SPAWNS * (|r.enemies| - |enemies|) as real == timer + dt
    ensures 0.0 <= timer && 0.0 <= dt ==> 0.0 <= r.timer
  {
    var clock := timer + dt;
    if clock > TIME_BETWEEN_ENEMY_SPAWNS then
      Spawn(clock - TIME_BETWEEN_ENEMY_SPAWNS, enemies + [SpawnedEnemy(draw)])
    else
      Spawn(clock, enemies)
  }

  function Sum(dts: seq<real>): real
  {
    if |dts| == 0 then 0.0 else dts[0] + Sum(dts[1..])
  }

  /** The spawner over consecutive frames with elapsed times dts and one
      random draw per frame. */
  function SpawnRun(timer: real, enemies: seq<Enemies.EnemyShip>, dts: seq<real>, draws: seq<real>): (r: Spawn)
    requires |draws| == |dts|
    ensures |enemies| <= |r.enemies| <= |enemies| + |dts|
    ensures r.enemies[..|enemies|] == enemies
    ensures r.timer + TIME_BETWEEN_ENEMY_SPAWNS * (|r.enemies| - |enemies|) as real == timer + Sum(dts)
    decreases |dts|
  {
    if |dts| == 0 then Spawn(timer, enemies)
    else
      var first := SpawnEnemyShips(timer, enemies, dts[0], draws[0]);
      SpawnRun(first.timer, first.enemies, dts[1..], draws[1..])
  }

  /** While no single frame is longer than the interval, the timer stays
      within [0, interval]: spawns keep pace with the elapsed time. */
  lemma {:induction false} SpawnTimerInPhase(timer: real, enemies: seq<Enemies.EnemyShip>, dts: seq<real>, draws: seq<real>)
    requires |draws| == |dts|
    requires 0.0 <= timer <= TIME_BETWEEN_ENEMY_SPAWNS
    requires forall i :: 0 <= i < |dts| ==> 0.0 <= dts[i] <= TIME_BETWEEN_ENEMY_SPAWNS
    ensures 0.0 <= SpawnRun(timer, enemies, dts, draws).timer <= TIME_BETWEEN_ENEMY_SPAWNS
    decreases |dts|
  {
    if |dts| > 0 {
      var first := SpawnEnemyShips(timer, enemies, dts[0], draws[0]);
      SpawnTimerInPhase(first.timer, first.enemies, dts[1..], draws[1..]);
    }
  }

  /** From a fresh timer, frames adding up to 3.2 seconds spawn exactly one
      enemy and leave 0.2 seconds on the timer. */
  lemma SpawnAfterThreePointTwoSeconds(draw: real)
    ensures var r := SpawnRun(0.0, [], [1.6, 1.6], [draw, draw]);
            |r.enemies| == 1 && r.timer == 0.2
  {
    var first := SpawnEnemyShips(0.0, [], 1.6, draw);
    assert first == Spawn(1.6, []);
    var second := SpawnEnemyShips(1.6, [], 1.6, draw);
    assert second.enemies == [SpawnedEnemy(draw)];
  }
}

=== FILE: wrappers.dfy ===
/** The optional value used for "no enemy was hit", "no wreck was left"
    and "the screen is not being touched". */
module Wrappers {

  datatype Option<+T> = None | Some(value: T)
}
